=== FILE: README.md ===
# Learning-platform core, modelled in Dafny

This project models the parts of the learning platform that carry rules:

- **The student dashboard.** It derives several things from the learner's enrolled courses and the course catalog:
  - the category list;
  - the summary statistics, including the streak heuristic;
  - the related-course recommender;
  - the recent-activity feed;
  - the category filter;
  - the "Today"/"Yesterday" date label.
- **The enroll button.** A click is routed to login, to the course content, or to the enrolment dialog. Confirming the dialog runs the enrolment attempt:
  - the primary enrolment call;
  - a best-effort notification subscription;
  - an optimistic patch of the cached catalog;
  - a reload of the learner's data;
  - navigation to the content.
- **The public contact page.** It covers per-field validation, clearing a field's error while typing, and the submit/response cycle.
- **The contact endpoint.**
  - `POST /api/contact` validates the submission, stores it as `unread` and sends notification e-mails. A mail failure never changes the answer.
  - `PATCH /api/contact/:id/status` updates the status of one stored message.

The modules follow the source files.

| module | models |
|---|---|
| `Dashboard` | pure derivations of `src/pages/student/Dashboard.jsx` |
| `RecentActivity` | the dashboard's loop-built activity feed |
| `DashboardPage` | the dashboard component's state (a class) |
| `EnrollButton` | `src/components/course/EnrollButton.jsx` |
| `ContactForm` | `src/pages/Contact.tsx` |
| `ContactRoutes` | `server/routes/contactRoutes.js` |

Shared modules hold the JavaScript operations the source relies on:

- `Text`:
  - `trim` and the `\s` class (the ECMA-262 white-space set);
  - ASCII `toLowerCase`;
  - `includes`;
  - `length` in UTF-16 code units;
  - the `\n` → `<br>` rewrite.
- `Email`: the e-mail pattern `^[^\s@]+@[^\s@]+\.[^\s@]+$`, shared by page and endpoint.
- `Seqs`: `filter`, `slice(0, n)` and the subsequence relation.
- `Courses`: the course documents.
- `Wrappers`: `Option`, with `x || default` as `GetOr`.

Conventions:

- **Time.** Times are integer milliseconds. The clock is an input (`now`). The local calendar day is `DayOf(ts, utcOffset)`, a day number for a fixed offset from UTC.
- **Asynchronous handlers.** An asynchronous handler is modelled as one method per `await` continuation.
  - The enroll button keeps the point it has reached in a `phase` field.
  - The pure function `EnrollButton.Step` specifies every transition. Each method of `EnrollButtonView` is proved to perform exactly that step.
  - Lemmas about whole event sequences are stated over `Run`.
- **Remote calls, the database and the mail transport.** They appear only as outcomes passed in as parameters.

Two behaviours of the code deserve a note:

- **Missing access times.** A course with no `lastAccessedAt` is not excluded from the streak computation. It counts as time 0 (`new Date(course.lastAccessedAt || 0)`, Dashboard.jsx:114-119).
- **The date label.** "Today"/"Yesterday" is not a calendar-date comparison. It counts whole elapsed 24-hour periods (`Math.floor`, Dashboard.jsx:140).

## Model

| member | source | states |
|---|---|---|
| Text.Trim | src/pages/Contact.tsx:52-68 | the trimmed string is the piece of the input left once white space is dropped at both ends: what is dropped before and after it is white space, it neither starts nor ends with white space, and it is empty exactly when the input is blank |
| Text.TrimKeeps | src/pages/Contact.tsx:52-68 | a string with no white space at either end is its own trim |
| Text.Truthy | server/routes/contactRoutes.js:28 | a field is truthy exactly when it is present and not empty |
| Text.TruthyDefault | src/components/course/EnrollButton.jsx:69 | a field is truthy exactly when `field \|\| ""` is not empty |
| Text.IsSpace | src/pages/Contact.tsx:52 | the white-space set: among ASCII characters exactly the space and tab to carriage return; never a letter, a digit, `@` or `.` |
| Text.Utf16Length | src/pages/Contact.tsx:68 | the JavaScript length of a string lies between its character count and twice that |
| Text.BreakLinesSpec | server/routes/contactRoutes.js:74 | the `\n` → `<br>` rewrite leaves no line feed, returns input without line feeds unchanged, and adds three characters per line feed |
| Text.BreakLines | server/routes/contactRoutes.js:74 | the rewritten message is at least as long as the message and holds no line feed |
| Text.BreakLinesChar | server/routes/contactRoutes.js:74 | a line feed becomes `<br>` and every other character stays as it is |
| Text.BreakLinesConcat | server/routes/contactRoutes.js:90 | the rewrite distributes over concatenation |
| Text.Lower | src/pages/student/Dashboard.jsx:52 | `toLowerCase` keeps the length, leaves no upper-case ASCII letter, keeps every other character, and maps each upper-case letter to its lower-case one |
| Text.Contains | src/pages/student/Dashboard.jsx:136 | `includes` finds the empty string and the string itself in any string, and never a longer string |
| Email.PatternShape | server/routes/contactRoutes.js:36-37 | the e-mail pattern matches exactly the strings with no white space, one `@` not in first position, and a `.` strictly inside the part after it |
| Email.MatchesPattern | server/routes/contactRoutes.js:36-37 | an address the pattern accepts has at least five characters, an `@` and a `.` |
| Email.PatternNotBlank | src/pages/Contact.tsx:56-60 | a string the pattern matches is not blank |
| Seqs.Filter | src/pages/student/Dashboard.jsx:58 | `filter` keeps only elements satisfying the predicate, keeps every one of them, and is never longer than its input |
| Seqs.FilterCounts | src/pages/student/Dashboard.jsx:58 | `filter` keeps every copy of an element satisfying the predicate and no copy of any other |
| Seqs.FilterConcat | src/pages/student/Dashboard.jsx:68-71 | `filter` distributes over concatenation |
| Seqs.Take | src/pages/student/Dashboard.jsx:71 | `slice(0, n)` is the prefix of length `min(n, length)` |
| Seqs.FilterIsSubsequence | src/pages/student/Dashboard.jsx:68-71 | `filter` keeps the relative order of what it keeps |
| Seqs.PrefixIsSubsequence | src/pages/student/Dashboard.jsx:71 | a prefix of an order-preserving selection is one |
| Seqs.SubsequenceMembers | src/pages/student/Dashboard.jsx:68-71 | every element of an order-preserving selection comes from the list |
| Dashboard.CategoryKey | src/pages/student/Dashboard.jsx:52 | the lower-cased category has the category's length, no upper-case ASCII letter, and is empty exactly when the category is missing or empty |
| Dashboard.Categories | src/pages/student/Dashboard.jsx:52 | the category list holds no empty string and no duplicate; each entry is some enrolled course's lower-cased category, and every non-empty one appears |
| Dashboard.ComputeStats | src/pages/student/Dashboard.jsx:56-64 | the enrolment count is the number of courses; the certificate count is the number of courses with a certificate, at most the enrolment count and zero exactly when none has one; goals are `min(2, n)` of 4; the streak is the streak heuristic's value, in 0..8 |
| Dashboard.CertifiedCount | src/pages/student/Dashboard.jsx:58 | filtering the certified courses and counting their positions give the same number |
| Dashboard.AccessTimeDefault | src/pages/student/Dashboard.jsx:114-119 | a course's access time is its stored time when present and the epoch (0) when missing |
| Dashboard.LatestAccess | src/pages/student/Dashboard.jsx:113-119 | the time taken for the most recent course is the latest access time of any enrolled course, with a missing time counting as 0 |
| Dashboard.DayOf | src/pages/student/Dashboard.jsx:124-125 | the day number is the one whose 24 hours of local time contain the instant |
| Dashboard.Streak | src/pages/student/Dashboard.jsx:110-132 | the streak is at most 8, 0 for no courses, and otherwise either 0 or at least 2 |
| Dashboard.StreakActive | src/pages/student/Dashboard.jsx:119-129 | when the latest access falls on today's or yesterday's date, the streak is `min(2n, 8)` |
| Dashboard.StreakStale | src/pages/student/Dashboard.jsx:124-131 | when every access is before yesterday's date, the streak is 0 |
| Dashboard.StreakPositive | src/pages/student/Dashboard.jsx:110-131 | the streak is non-zero exactly when some course was accessed today or yesterday and none on a later date |
| Dashboard.StreakAhead | src/pages/student/Dashboard.jsx:119-131 | a course whose access is dated after today makes the streak 0 |
| Dashboard.RelatedCourses | src/pages/student/Dashboard.jsx:66-72 | related courses number at most 3; they come from the catalog in catalog order; none is enrolled; each has an enrolled category (exact match); there are none without categories; with fewer than 3, every qualifying catalog course is there; every qualifying course with fewer than three qualifying courses before it is kept |
| Dashboard.RelatedFirstThree | src/pages/student/Dashboard.jsx:68-71 | the recommendations are the first three matches position by position: a qualifying course with `n < 3` qualifying courses before it is recommendation number `n`, so a course listed twice is recommended twice |
| Dashboard.RelatedKeptAt | src/pages/student/Dashboard.jsx:68-71 | a qualifying catalog course stands in the matches right after the matches that precede it in the catalog |
| Dashboard.IsRelated | src/pages/student/Dashboard.jsx:68-70 | a related course has a non-empty category, is none of the enrolled courses, and nothing is related when nothing is enrolled |
| Dashboard.FilterByCategory | src/pages/student/Dashboard.jsx:134-136 | "all" returns the list unchanged; otherwise the result is exactly the courses whose lower-cased category contains the selection as a substring, in order, with every copy kept |
| Dashboard.FilterShowsCategory | src/pages/student/Dashboard.jsx:136 | selecting a category shows every course of exactly that category |
| Dashboard.FormatDate | src/pages/student/Dashboard.jsx:138-144 | the label is "Today" exactly when less than 24 hours have elapsed, "Yesterday" exactly for 24 to 48 hours, and otherwise the date itself |
| RecentActivity.Emit | src/pages/student/Dashboard.jsx:82-88 | a content item yields an entry exactly when it is completed and has an access time; the entry carries the course title, the content id and that time |
| RecentActivity.ContentMembers | src/pages/student/Dashboard.jsx:81-89 | a module's entries are exactly those emitted by its content items |
| RecentActivity.ModuleMembers | src/pages/student/Dashboard.jsx:79-90 | a course's entries are exactly those emitted by its modules' content items |
| RecentActivity.FeedMembers | src/pages/student/Dashboard.jsx:76-91 | the feed holds exactly the entries emitted by some content item of some module of some course |
| RecentActivity.InsertByRecency | src/pages/student/Dashboard.jsx:93 | inserting into a newest-first list keeps it newest first and adds exactly that entry |
| RecentActivity.SortByRecency | src/pages/student/Dashboard.jsx:93 | the sort yields a permutation of its input, newest first |
| RecentActivity.NewestKept | src/pages/student/Dashboard.jsx:93-94 | the first three after the sort are among the entries, and no entry left out is more recent than one kept |
| RecentActivity.TakeSorted | src/pages/student/Dashboard.jsx:94 | the first three of a newest-first list are newest first |
| RecentActivity.RecentEmitted | src/pages/student/Dashboard.jsx:82-94 | every recent activity comes from a completed content item with an access time |
| RecentActivity.CollectContent | src/pages/student/Dashboard.jsx:81-89 | the innermost loop pushes exactly the module's entries, in order |
| RecentActivity.CollectModules | src/pages/student/Dashboard.jsx:79-90 | the middle loop pushes exactly the course's entries, module by module |
| RecentActivity.CollectActivities | src/pages/student/Dashboard.jsx:75-91 | the nested loops build exactly the feed |
| RecentActivity.RecentActivities | src/pages/student/Dashboard.jsx:75-94 | the recent activities are the first three of the sorted feed: at most three, newest first, each from a completed content item with an access time, none newer left out |
| DashboardPage.DashboardView.constructor | src/pages/student/Dashboard.jsx:27-38 | the initial state: loading, category "all", empty lists, zero statistics with 4 goals |
| DashboardPage.DashboardView.Refresh | src/pages/student/Dashboard.jsx:43-108 | without a token nothing changes; otherwise every derived field is recomputed from `enrolledCourses \|\| []` and the catalog, the selection is kept, and loading ends false |
| DashboardPage.DashboardView.Recompute | src/pages/student/Dashboard.jsx:48-94 | the categories, statistics, recommendations and recent activities become the values the derivations give for the courses and the catalog |
| DashboardPage.DashboardView.SelectCategory | src/pages/student/Dashboard.jsx:27 | the selection becomes the chosen category |
| DashboardPage.DashboardView.ShownCourses | src/pages/student/Dashboard.jsx:134-136 | the listed courses are all courses under "all", and always an order-preserving selection of them |
| EnrollButton.FailureMessage | src/components/course/EnrollButton.jsx:69 | the failure text is the server's message when there is a non-empty one, otherwise the fallback, and never empty |
| EnrollButton.Patch | src/components/course/EnrollButton.jsx:47-57 | the patch keeps length and ids; a course changes exactly when its `_id` matches; a matching course gains one enrolment (missing counts as 0), the learner at the end of its student list, and the enrolled mark, and nothing else |
| EnrollButton.Step | src/components/course/EnrollButton.jsx:22-92 | every transition keeps the invariant: busy exactly while the attempt waits, and a dialog or attempt only with a user; effects are only ever appended |
| EnrollButton.Run | src/components/course/EnrollButton.jsx:22-92 | any sequence of events keeps the invariant and only appends effects |
| EnrollButton.ClickWithoutUser | src/components/course/EnrollButton.jsx:79-82 | without a user a click only navigates to `/login`, remembering `/courses/<key>`; the dialog stays closed |
| EnrollButton.ClickWhenEnrolled | src/components/course/EnrollButton.jsx:85-88 | a signed-in, enrolled learner's click only navigates to `/student/courses/<key>` |
| EnrollButton.EnrolledNeverEnrolls | src/components/course/EnrollButton.jsx:85-88 | for an enrolled learner no sequence of events opens the dialog, starts an attempt, patches the catalog or produces anything but navigation |
| EnrollButton.ClickOpensDialog | src/components/course/EnrollButton.jsx:91 | otherwise a click only opens the dialog |
| EnrollButton.BusyIgnoresInput | src/components/course/EnrollButton.jsx:99 | while busy, clicks and confirmations change nothing |
| EnrollButton.EnrolmentSucceeds | src/components/course/EnrollButton.jsx:22-63 | a successful attempt is busy until the navigation, then idle; the dialog is closed; the catalog is patched unless empty; the effects are enrol, subscribe, success toast, reload and navigate to the content, in order |
| EnrollButton.SubscribeFailureSwallowed | src/components/course/EnrollButton.jsx:29-34 | a failed subscription leads to exactly the state a successful one does |
| EnrollButton.EnrolmentFails | src/components/course/EnrollButton.jsx:65-74 | a failed enrolment adds the destructive toast with the server's message or the fallback; the dialog stays open, the catalog is untouched, and the button is idle |
| EnrollButton.ReloadFailureReportedAsFailure | src/components/course/EnrollButton.jsx:62-74 | a failed reload after a successful enrolment ends with the failure toast after the success toast, the patch applied and no navigation |
| EnrollButton.EnrollButtonView.constructor | src/components/course/EnrollButton.jsx:14-16 | the button starts idle with the dialog closed |
| EnrollButton.EnrollButtonView.Click | src/components/course/EnrollButton.jsx:77-92 | the click handler performs exactly the specified click transition |
| EnrollButton.EnrollButtonView.Confirm | src/components/course/EnrollButton.jsx:22-26 | confirming performs exactly the specified transition: busy, and the enrolment call |
| EnrollButton.EnrollButtonView.Dismiss | src/components/course/EnrollButton.jsx:115 | closing the dialog performs exactly the specified transition |
| EnrollButton.EnrollButtonView.EnrollReturned | src/components/course/EnrollButton.jsx:26-30 | the enrolment's outcome performs exactly the specified transition |
| EnrollButton.EnrollButtonView.SubscribeReturned | src/components/course/EnrollButton.jsx:30-62 | the subscription's outcome performs exactly the specified transition, including the patch |
| EnrollButton.EnrollButtonView.ReloadReturned | src/components/course/EnrollButton.jsx:62-74 | the reload's outcome performs exactly the specified transition |
| ContactForm.MessageText | src/pages/Contact.tsx:53-69 | no error text is empty |
| ContactForm.MessageTextsDistinct | src/pages/Contact.tsx:53-69 | no two validation errors share a text, so the text shown names the rule that failed |
| ContactForm.RequiredError | src/pages/Contact.tsx:52-54 | a name or subject has an error exactly when it is blank, and the error is the field's "required" message |
| ContactForm.EmailError | src/pages/Contact.tsx:56-60 | the e-mail error is "required" exactly when blank, "invalid" exactly when not blank and not matching, and absent exactly when it matches |
| ContactForm.MessageError | src/pages/Contact.tsx:66-70 | the message error is "required" exactly when blank, "too short" exactly when not blank and under 10 code units once trimmed, and absent exactly when at least 10 |
| ContactForm.ValidExactlyWhenAcceptable | src/pages/Contact.tsx:72-73 | there is no error exactly when name and subject are not blank, the e-mail matches, and the trimmed message has at least 10 code units |
| ContactForm.PageStricterThanEndpoint | src/pages/Contact.tsx:49-74 | every form the page accepts passes the endpoint's checks |
| ContactForm.BlankNameOnlyFault | src/pages/Contact.tsx:52-54 | a non-empty, blank name is accepted by the endpoint and, when every other field is acceptable, is the only error the page reports |
| ContactForm.EndpointLaxerThanPage | server/routes/contactRoutes.js:28-42 | a form with a one-space name and otherwise acceptable fields passes the endpoint, while the page refuses it with the name error alone |
| ContactForm.ReplyToast | src/pages/Contact.tsx:103-128 | an ok JSON reply gives the non-destructive "Message sent successfully!" toast; another JSON reply gives the "Failed to send message" title with the server's message or the fallback; a failed request or unparsable reply gives the fixed error toast; only success is non-destructive |
| ContactForm.ContactPage.constructor | src/pages/Contact.tsx:30-38 | the page starts with an empty form, no errors and nothing pending |
| ContactForm.ContactPage.ValidateForm | src/pages/Contact.tsx:49-74 | the shown errors become the form's errors, and the answer is whether there are none |
| ContactForm.ContactPage.HandleChange | src/pages/Contact.tsx:76-83 | the named field takes the value and its error is cleared; no other field or error changes |
| ContactForm.ContactPage.HandleSubmit | src/pages/Contact.tsx:85-92 | while a request is pending or the success message shows, nothing changes; otherwise the shown errors become the form's errors; an invalid form sends nothing; a valid one sets `isSubmitting` and posts the form |
| ContactForm.ContactPage.ReplyArrived | src/pages/Contact.tsx:94-131 | an ok reply empties the form and shows success; every reply adds its toast; `isSubmitting` ends false |
| ContactForm.ContactPage.SuccessTimerFired | src/pages/Contact.tsx:114 | the success message is hidden again |
| ContactRoutes.ParseStatus | server/routes/contactRoutes.js:158 | only the three literal status names are accepted, each for the status it names |
| ContactRoutes.StatusRoundTrip | server/routes/contactRoutes.js:158 | every status is accepted under its own name |
| ContactRoutes.CheckSubmission | server/routes/contactRoutes.js:28-42 | a missing or empty field gives 400 "All fields are required" before the pattern is checked; a non-matching e-mail then gives 400 "Invalid email format"; anything else passes |
| ContactRoutes.BlankFieldsAccepted | server/routes/contactRoutes.js:28-42 | any non-empty name, subject and message made only of white space pass, with any matching address, because the endpoint does not trim |
| ContactRoutes.NewContact | server/routes/contactRoutes.js:48-55 | the stored record copies the four fields, stamps the time and is `unread` |
| ContactRoutes.NotificationMails | server/routes/contactRoutes.js:65-94 | two mails: to the admin, with subject "New Contact Form Submission: " and the subject, and to the sender, with the fixed thank-you subject; both carry the message with its line feeds rewritten as `<br>`, so no line feed remains |
| ContactRoutes.ContactsCollection.InsertOne | server/routes/contactRoutes.js:57 | exactly one record is added, under an id not in use |
| ContactRoutes.ContactsCollection.UpdateOne | server/routes/contactRoutes.js:169-172 | an update matches exactly when the id is stored, and then sets only that record's status and update time |
| ContactRoutes.PostContact | server/routes/contactRoutes.js:23-125 | an invalid body gets its 400 and stores nothing; a failed insert gets 500; otherwise one `unread` record is added and the answer is 200 with its id whatever the mail outcome, with mails only when a transport exists |
| ContactRoutes.PatchStatus | server/routes/contactRoutes.js:153-193 | an unknown status gives 400 before the store is touched; a malformed id gives 500; an unknown id gives 404; otherwise 200, and only that record's status and update time change |

## Left out

- The `GET /api/contact` listing (contactRoutes.js:128-150) is not modelled. It is a read-only database query sorted by the database.
- **Network, database and mail.** `fetch`, `enrollInCourse`, `subscribeToCourseNotifications`, `packLoad`, MongoDB and nodemailer appear only as outcomes passed in. The model does not capture:
  - what `packLoad` does to the shared context;
  - the fields the database adds;
  - the HTML around the message in the e-mails. Only recipient, subject and rewritten message are modelled.
- **Object identifiers.** Parsing is reduced to `Option<nat>`: `None` is a malformed identifier, which makes the `ObjectId` constructor throw. The PATCH handler's own database failure, which also gives 500, is not a separate input.
- **Time zones and locale.** Time zones are a fixed offset, so daylight-saving changes are not modelled. `toLocaleDateString` is left opaque: `LocaleDate` carries the timestamp.
- **Field types.** The request-body fields are assumed to be strings or absent. Other JSON types, which JavaScript would coerce, are not modelled.
- **The dashboard's error path.** The `try`/`catch` that shows a toast when its effect throws is not modelled. No modelled step throws.
- **The dialog component.** `EnrollmentDialog` is not part of this model. Its confirm action is taken to be ignored while `isLoading` is set.
- **User interface.** Rendering, themes, animations, and the button-group versus dropdown choice for more than three categories are not modelled.
- Text.Lower: lower-cases ASCII letters only. JavaScript's `toLowerCase` also maps non-ASCII letters.
- RecentActivity.SortByRecency: the sort is proved ordered and a permutation. Its stability is not stated, although the insertion sort is stable.

=== FILE: contact_form.dfy ===
/** The public contact page: a four-field form validated in the browser, whose errors
    are cleared field by field as the visitor types, and which is posted to the contact
    endpoint once valid. The page's state is a class; the network reply is an input
    to the method that handles it. */
module ContactForm {

  import opened Wrappers
  import opened Text
  import opened Email
  import ContactRoutes

  datatype Field = NameField | EmailField | SubjectField | MessageField

  datatype FormData = FormData(name: string, email: string, subject: string, message: string)

  /** The messages `validateForm` can show under a field. */
  datatype ErrorMessage =
    | NameRequired
    | EmailRequired
    | EmailInvalid
    | SubjectRequired
    | MessageRequired
    | MessageTooShort

  /** The text shown; never empty, so a field shows an error exactly when it has one. */
  function MessageText(m: ErrorMessage): (s: string)
    ensures s != ""
  {
    match m
    case NameRequired => "Name is required"
    case EmailRequired => "Email is required"
    case EmailInvalid => "Please enter a valid email"
    case SubjectRequired => "Subject is required"
    case MessageRequired => "Message is required"
    case MessageTooShort => "Message must be at least 10 characters"
  }

  /** Each error has its own text, so the text shown tells which rule failed. */
  lemma MessageTextsDistinct(a: ErrorMessage, b: ErrorMessage)
    ensures MessageText(a) == MessageText(b) ==> a == b
  {
  }

  /** An entry is `None` when the field has no error to show. */
  datatype FormErrors = FormErrors(
    name: Option<ErrorMessage>,
    email: Option<ErrorMessage>,
    subject: Option<ErrorMessage>,
    message: Option<ErrorMessage>)

  const EmptyForm := FormData("", "", "", "")
  const NoErrors := FormErrors(None, None, None, None)

  /** The shortest accepted message, in UTF-16 code units after trimming. */
  const MinMessageLength := 10

  function GetField(f: FormData, field: Field): string {
    match field
    case NameField => f.name
    case EmailField => f.email
    case SubjectField => f.subject
    case MessageField => f.message
  }

  function SetField(f: FormData, field: Field, value: string): FormData {
    match field
    case NameField => f.(name := value)
    case EmailField => f.(email := value)
    case SubjectField => f.(subject := value)
    case MessageField => f.(message := value)
  }

  function ErrorOf(e: FormErrors, field: Field): Option<ErrorMessage> {
    match field
    case NameField => e.name
    case EmailField => e.email
    case SubjectField => e.subject
    case MessageField => e.message
  }

  function ClearError(e: FormErrors, field: Field): FormErrors {
    match field
    case NameField => e.(name := None)
    case EmailField => e.(email := None)
    case SubjectField => e.(subject := None)
    case MessageField => e.(message := None)
  }

  /** The name rule (the subject's is the same): required, judged after trimming. */
  function RequiredError(value: string, message: ErrorMessage): (r: Option<ErrorMessage>)
    ensures r.None? <==> !IsBlank(value)
    ensures r.Some? ==> r.value == message
  {
    if Trim(value) == "" then Some(message) else None
  }

  /** The e-mail rule: "required" when blank after trimming, otherwise "invalid" when
      the value as typed does not match the pattern. */
  function EmailError(email: string): (r: Option<ErrorMessage>)
    ensures r == Some(EmailRequired) <==> IsBlank(email)
    ensures r == Some(EmailInvalid) <==> !IsBlank(email) && !MatchesPattern(email)
    ensures r.None? <==> MatchesPattern(email)
  {
    assert MatchesPattern(email) ==> !IsBlank(email) by {
      if MatchesPattern(email) {
        PatternNotBlank(email);
      }
    }
    if Trim(email) == "" then Some(EmailRequired)
    else if !MatchesPattern(email) then Some(EmailInvalid)
    else None
  }

  /** The message rule: "required" when blank after trimming, otherwise "too short"
      below ten UTF-16 code units once trimmed. */
  function MessageError(message: string): (r: Option<ErrorMessage>)
    ensures r == Some(MessageRequired) <==> IsBlank(message)
    ensures r == Some(MessageTooShort) <==>
      !IsBlank(message) && Utf16Length(Trim(message)) < MinMessageLength
    ensures r.None? <==> Utf16Length(Trim(message)) >= MinMessageLength
  {
    if Trim(message) == "" then Some(MessageRequired)
    else if Utf16Length(Trim(message)) < MinMessageLength then Some(MessageTooShort)
    else None
  }

  /** `validateForm`'s errors: each field judged by its own rule. */
  function Validate(f: FormData): FormErrors {
    FormErrors(
      RequiredError(f.name, NameRequired),
      EmailError(f.email),
      RequiredError(f.subject, SubjectRequired),
      MessageError(f.message))
  }

  /** `Object.keys(newErrors).length === 0` */
  predicate HasNoErrors(e: FormErrors) {
    e.name.None? && e.email.None? && e.subject.None? && e.message.None?
  }

  /** A form the page accepts: a name and a subject that are not blank, an e-mail that
      matches the pattern, and a message of at least ten code units once trimmed. */
  predicate Acceptable(f: FormData) {
    !IsBlank(f.name) && MatchesPattern(f.email) && !IsBlank(f.subject)
    && Utf16Length(Trim(f.message)) >= MinMessageLength
  }

  lemma ValidExactlyWhenAcceptable(f: FormData)
    ensures HasNoErrors(Validate(f)) <==> Acceptable(f)
  {
  }

  /** The request body the page posts (`JSON.stringify(formData)`). */
  function RequestBody(f: FormData): ContactRoutes.Body {
    ContactRoutes.Body(Some(f.name), Some(f.email), Some(f.subject), Some(f.message))
  }

  /** Every form the page lets through passes the endpoint's checks: the page is at
      least as strict as the endpoint. */
  lemma PageStricterThanEndpoint(f: FormData)
    requires HasNoErrors(Validate(f))
    ensures ContactRoutes.CheckSubmission(RequestBody(f)).None?
  {
    assert Trim(f.name) != [] && Trim(f.subject) != [];
    assert Utf16Length(Trim(f.message)) >= 10;
  }

  /** A non-empty but blank name is the one gap between the two checks: with every other
      field acceptable, the endpoint takes the form and the page refuses it for its name
      alone. */
  lemma BlankNameOnlyFault(f: FormData)
    requires f.name != "" && IsBlank(f.name)
    requires MatchesPattern(f.email) && !IsBlank(f.subject)
    requires Utf16Length(Trim(f.message)) >= MinMessageLength
    ensures ContactRoutes.CheckSubmission(RequestBody(f)).None?
    ensures Validate(f) == FormErrors(Some(NameRequired), None, None, None)
  { }

  /** A form whose name is a single space and whose other fields are acceptable. */
  const BlankNameForm := FormData(" ", "a@b.co", "hi", "longmessage")

  /** The sample form meets every rule but the name's. */
  lemma BlankNameFormFaults()
    ensures BlankNameForm.name != "" && IsBlank(BlankNameForm.name)
    ensures MatchesPattern(BlankNameForm.email) && !IsBlank(BlankNameForm.subject)
    ensures Utf16Length(Trim(BlankNameForm.message)) >= MinMessageLength
  {
    var address := "a@b.co";
    assert address[..1] == "a" && address[2..3] == "b" && address[4..] == "co";
    assert SplitsAt(address, 1, 3);
    var message := "longmessage";
    assert !IsSpace(message[0]) && !IsSpace(message[|message| - 1]);
    TrimKeeps(message);
    assert IsSpace(" "[0]) && !IsSpace("hi"[0]);
  }

  /** The converse fails: the endpoint accepts a body the page refuses, because it does
      not trim. A blank name is the only fault the page finds in this form. */
  lemma EndpointLaxerThanPage()
    ensures ContactRoutes.CheckSubmission(RequestBody(BlankNameForm)).None?
    ensures Validate(BlankNameForm) == FormErrors(Some(NameRequired), None, None, None)
  {
    BlankNameFormFaults();
    BlankNameOnlyFault(BlankNameForm);
  }

  /** The outcome of the `fetch` and `response.json()` pair: the request itself failed,
      the reply was not JSON, or a JSON reply with the HTTP `ok` flag and its `message`. */
  datatype Reply = FetchFailed | NotJson | Json(ok: bool, message: Option<string>)

  datatype Toast = Toast(title: string, description: string, destructive: bool)

  const SentTitle := "Message sent successfully!"
  const SentDescription := "We'll get back to you as soon as possible."
  const RejectedTitle := "Failed to send message"
  const RejectedFallback := "Please try again later."
  const ErrorTitle := "Error"
  const ErrorDescription := "Failed to send message. Please try again later."

  /** The toast a reply produces: success for an `ok` JSON reply; the server's message,
      or a fallback when it has none, for any other JSON reply; a fixed error when the
      request failed or the reply could not be parsed (parsing happens before `ok` is
      looked at). */
  function ReplyToast(reply: Reply): (t: Toast)
    ensures t.destructive <==> !(reply.Json? && reply.ok)
    ensures reply.Json? && reply.ok ==> t == Toast(SentTitle, SentDescription, false)
    ensures reply.Json? && !reply.ok ==> t.title == RejectedTitle
    ensures reply.Json? && !reply.ok && Truthy(reply.message) ==> t.description == reply.message.value
    ensures reply.Json? && !reply.ok && !Truthy(reply.message) ==> t.description == RejectedFallback
    ensures !reply.Json? ==> t == Toast(ErrorTitle, ErrorDescription, true)
    ensures t.description != ""
  {
    match reply
    case Json(ok, message) =>
      if ok then Toast(SentTitle, SentDescription, false)
      else Toast(RejectedTitle, if Truthy(message) then message.value else RejectedFallback, true)
    case _ => Toast(ErrorTitle, ErrorDescription, true)
  }

  class ContactPage {
    var formData: FormData
    var errors: FormErrors
    var isSubmitting: bool
    var isSuccess: bool
    /** The bodies posted, oldest first. */
    var requests: seq<FormData>
    /** The toasts shown, oldest first. */
    var toasts: seq<Toast>

    constructor ()
      ensures formData == EmptyForm && errors == NoErrors
      ensures !isSubmitting && !isSuccess && requests == [] && toasts == []
    {
      formData := EmptyForm;
      errors := NoErrors;
      isSubmitting := false;
      isSuccess := false;
      requests := [];
      toasts := [];
    }

    /** `validateForm`: replaces the shown errors by the current form's and answers
        whether there are none. */
    method ValidateForm() returns (valid: bool)
      modifies this`errors
      ensures errors == Validate(formData)
      ensures valid <==> HasNoErrors(errors)
    {
      var f := formData;
      var name, email, subject, message := None, None, None, None;
      if Trim(f.name) == "" {
        name := Some(NameRequired);
      }
      assert name == RequiredError(f.name, NameRequired);
      if Trim(f.email) == "" {
        email := Some(EmailRequired);
      } else if !MatchesPattern(f.email) {
        email := Some(EmailInvalid);
      }
      assert email == EmailError(f.email);
      if Trim(f.subject) == "" {
        subject := Some(SubjectRequired);
      }
      assert subject == RequiredError(f.subject, SubjectRequired);
      if Trim(f.message) == "" {
        message := Some(MessageRequired);
      } else if Utf16Length(Trim(f.message)) < MinMessageLength {
        message := Some(MessageTooShort);
      }
      assert message == MessageError(f.message);
      errors := FormErrors(name, email, subject, message);
      valid := name.None? && email.None? && subject.None? && message.None?;
    }

    /** `handleChange`: stores the typed value and clears that field's error, if it
        shows one (an error's text is never empty, so "shows one" is "has one"); no
        other field or error changes. */
    method HandleChange(field: Field, value: string)
      modifies this`formData, this`errors
      ensures GetField(formData, field) == value
      ensures ErrorOf(errors, field).None?
      ensures forall g :: g != field ==>
        GetField(formData, g) == GetField(old(formData), g) && ErrorOf(errors, g) == ErrorOf(old(errors), g)
    {
      formData := SetField(formData, field, value);
      if ErrorOf(errors, field).Some? && MessageText(ErrorOf(errors, field).value) != "" {
        errors := ClearError(errors, field);
      }
    }

    /** `handleSubmit` up to the request: an invalid form only shows its errors; a
        valid one sets `isSubmitting` and posts the form as it is. The form is not
        shown while the success message is, and its button is disabled while a request
        is pending, so the page then ignores the event. */
    method HandleSubmit() returns (sent: bool)
      modifies this`errors, this`isSubmitting, this`requests
      ensures old(isSubmitting || isSuccess) ==>
        !sent && errors == old(errors) && isSubmitting == old(isSubmitting) && requests == old(requests)
      ensures !old(isSubmitting || isSuccess) ==> errors == Validate(formData)
      ensures !old(isSubmitting || isSuccess) ==> (sent <==> HasNoErrors(Validate(formData)))
      ensures sent ==> isSubmitting && requests == old(requests) + [formData]
      ensures !sent ==> isSubmitting == old(isSubmitting) && requests == old(requests)
    {
      if isSubmitting || isSuccess {
        return false;
      }
      var valid := ValidateForm();
      if valid {
        isSubmitting := true;
        requests := requests + [formData];
      }
      sent := valid;
    }

    /** The rest of `handleSubmit`, once the reply is in: an `ok` JSON reply empties the
        form and shows the success message; every reply adds its toast; `isSubmitting`
        ends false. With no request pending nothing happens. */
    method ReplyArrived(reply: Reply)
      modifies this`formData, this`isSubmitting, this`isSuccess, this`toasts
      ensures !old(isSubmitting) ==>
        formData == old(formData) && isSuccess == old(isSuccess) && toasts == old(toasts) && !isSubmitting
      ensures old(isSubmitting) ==> !isSubmitting && toasts == old(toasts) + [ReplyToast(reply)]
      ensures old(isSubmitting) && reply.Json? && reply.ok ==> isSuccess && formData == EmptyForm
      ensures old(isSubmitting) && !(reply.Json? && reply.ok) ==>
        isSuccess == old(isSuccess) && formData == old(formData)
    {
      if !isSubmitting {
        return;
      }
      if reply.Json? && reply.ok {
        isSuccess := true;
        formData := EmptyForm;
      }
      toasts := toasts + [ReplyToast(reply)];
      isSubmitting := false;
    }

    /** The five-second timer set on success hides the success message again. */
    method SuccessTimerFired()
      modifies this`isSuccess
      ensures !isSuccess
    {
      isSuccess := false;
    }
  }
}

=== FILE: contact_routes.dfy ===
/** The contact endpoint: `POST /api/contact` validates a submission, stores it with
    status `unread` and, when mail is configured, sends two notification e-mails whose
    failure never changes the answer; `PATCH /api/contact/:id/status` sets the status of
    one stored message. The `contacts` collection is a map from identifier to record
    that the handlers update in place; the database's and the mail transport's outcomes
    are inputs, and so is the clock. */
module ContactRoutes {

  import opened Wrappers
  import opened Text
  import opened Email

  /** The request body; a field is `None` when the client did not send it. */
  datatype Body = Body(name: Option<string>, email: Option<string>, subject: Option<string>, message: Option<string>)

  datatype Status = Unread | Read | Responded

  /** A stored contact message. */
  datatype Contact = Contact(
    name: string,
    email: string,
    subject: string,
    message: string,
    createdAt: int,
    status: Status,
    updatedAt: Option<int>)

  /** The HTTP status code and the JSON body (`success`, `message`, `contactId`). */
  datatype Response = Response(code: int, success: bool, message: string, contactId: Option<nat>)

  /** The part of a notification e-mail the handler computes: recipient, subject line and
      the message rendered for HTML. */
  datatype Mail = Mail(to: string, subject: string, messageHtml: string)

  /** `createTransporter()`: no transport unless credentials are configured; otherwise
      the admin address and whether sending both e-mails succeeds. */
  datatype Mailer = NoMailer | Mailer(adminAddress: string, sendOk: bool)

  const AllFieldsRequired := "All fields are required"
  const InvalidEmailFormat := "Invalid email format"
  const Received := "Your message has been received. We will get back to you soon!"
  const ProcessingFailed := "Failed to process your message. Please try again later."
  const InvalidStatus := "Invalid status. Must be unread, read, or responded"
  const NotFound := "Contact message not found"
  const StatusUpdated := "Contact message status updated"
  const UpdateFailed := "Failed to update contact message status"

  function StatusName(st: Status): string {
    match st
    case Unread => "unread"
    case Read => "read"
    case Responded => "responded"
  }

  /** `['unread', 'read', 'responded'].includes(status)`: only the three literal names are
      accepted, each for the status it names. */
  function ParseStatus(s: Option<string>): (r: Option<Status>)
    ensures r.Some? <==> s.Some? && (s.value == "unread" || s.value == "read" || s.value == "responded")
    ensures r.Some? ==> StatusName(r.value) == s.value
  {
    if s == Some("unread") then Some(Unread)
    else if s == Some("read") then Some(Read)
    else if s == Some("responded") then Some(Responded)
    else None
  }

  /** Every status is accepted under its own name. */
  lemma StatusRoundTrip(st: Status)
    ensures ParseStatus(Some(StatusName(st))) == Some(st)
  {
  }

  /** The checks of the POST handler, in order: every field present and non-empty (no
      trimming, so white space passes), then the e-mail pattern. `None` means valid. */
  function CheckSubmission(b: Body): (r: Option<Response>)
    ensures r.Some? ==> r.value.code == 400 && !r.value.success && r.value.contactId.None?
    ensures !(Truthy(b.name) && Truthy(b.email) && Truthy(b.subject) && Truthy(b.message)) ==>
      r == Some(Response(400, false, AllFieldsRequired, None))
    ensures (Truthy(b.name) && Truthy(b.email) && Truthy(b.subject) && Truthy(b.message)
             && !MatchesPattern(b.email.value)) ==>
      r == Some(Response(400, false, InvalidEmailFormat, None))
    ensures r.None? <==>
      Truthy(b.name) && Truthy(b.email) && Truthy(b.subject) && Truthy(b.message) && MatchesPattern(b.email.value)
  {
    if !Truthy(b.name) || !Truthy(b.email) || !Truthy(b.subject) || !Truthy(b.message) then
      Some(Response(400, false, AllFieldsRequired, None))
    else if !MatchesPattern(b.email.value) then
      Some(Response(400, false, InvalidEmailFormat, None))
    else
      None
  }

  /** Name, subject and message made only of white space pass the endpoint's checks,
      which do not trim, as long as the address matches the pattern. */
  lemma BlankFieldsAccepted(name: string, email: string, subject: string, message: string)
    requires name != "" && IsBlank(name) && subject != "" && IsBlank(subject)
    requires message != "" && IsBlank(message) && MatchesPattern(email)
    ensures CheckSubmission(Body(Some(name), Some(email), Some(subject), Some(message))).None?
  {
    PatternNotBlank(email);
  }

  /** The record stored for a valid submission: the four fields, the time, `unread`. */
  function NewContact(b: Body, now: int): (c: Contact)
    requires CheckSubmission(b).None?
    ensures c.name == b.name.value && c.email == b.email.value
    ensures c.subject == b.subject.value && c.message == b.message.value
    ensures c.status == Unread && c.createdAt == now && c.updatedAt.None?
  {
    Contact(b.name.value, b.email.value, b.subject.value, b.message.value, now, Unread, None)
  }

  /** The two notification e-mails: to the admin and a confirmation to the sender, each
      carrying the message with its line feeds rewritten as `<br>`. */
  function NotificationMails(c: Contact, adminAddress: string): (r: seq<Mail>)
    ensures |r| == 2 && r[0].to == adminAddress && r[1].to == c.email
    ensures r[0].subject == "New Contact Form Submission: " + c.subject
    ensures r[1].subject == "Thank you for contacting African Intelligence"
    ensures forall k :: 0 <= k < 2 ==> r[k].messageHtml == BreakLines(c.message)
    ensures forall k :: 0 <= k < 2 ==> '\n' !in r[k].messageHtml
  {
    BreakLinesSpec(c.message);
    [Mail(adminAddress, "New Contact Form Submission: " + c.subject, BreakLines(c.message)),
     Mail(c.email, "Thank you for contacting African Intelligence", BreakLines(c.message))]
  }

  /** The `contacts` collection. Identifiers come from a counter, so a new one is never
      in use. */
  class ContactsCollection {
    var contacts: map<nat, Contact>
    var nextId: nat

    ghost predicate Valid()
      reads this
    {
      forall k :: k in contacts ==> k < nextId
    }

    constructor ()
      ensures Valid() && contacts == map[]
    {
      contacts := map[];
      nextId := 0;
    }

    /** `insertOne`: exactly one new record under a fresh identifier. */
    method InsertOne(c: Contact) returns (id: nat)
      requires Valid()
      modifies this
      ensures Valid()
      ensures id !in old(contacts) && contacts == old(contacts)[id := c]
    {
      id := nextId;
      contacts := contacts[id := c];
      nextId := nextId + 1;
    }

    /** `updateOne({_id}, {$set: {status, updatedAt}})`: matches at most the one record
      with that identifier and sets only those two fields of it. */
    method UpdateOne(id: nat, status: Status, now: int) returns (matched: bool)
      requires Valid()
      modifies this`contacts
      ensures Valid()
      ensures matched <==> id in old(contacts)
      ensures matched ==> contacts == old(contacts)[id := old(contacts)[id].(status := status, updatedAt := Some(now))]
      ensures !matched ==> contacts == old(contacts)
    {
      matched := id in contacts;
      if matched {
        contacts := contacts[id := contacts[id].(status := status, updatedAt := Some(now))];
      }
    }
  }

  /** `POST /api/contact`. An invalid body gets its 400 and stores nothing; a failed
      insert gets 500; otherwise exactly one `unread` record is added and the answer is
      200 with its identifier, whatever happens to the e-mails (attempted only when a
      transport is configured). */
  method PostContact(db: ContactsCollection, b: Body, now: int, insertOk: bool, mailer: Mailer)
    returns (resp: Response, outbox: seq<Mail>)
    requires db.Valid()
    modifies db
    ensures db.Valid()
    ensures CheckSubmission(b).Some? ==>
      resp == CheckSubmission(b).value && db.contacts == old(db.contacts) && outbox == []
    ensures CheckSubmission(b).None? && !insertOk ==>
      resp == Response(500, false, ProcessingFailed, None) && db.contacts == old(db.contacts) && outbox == []
    ensures CheckSubmission(b).None? && insertOk ==>
      && resp.code == 200 && resp.success && resp.message == Received && resp.contactId.Some?
      && resp.contactId.value !in old(db.contacts)
      && db.contacts == old(db.contacts)[resp.contactId.value := NewContact(b, now)]
      && outbox == (if mailer.Mailer? then NotificationMails(NewContact(b, now), mailer.adminAddress) else [])
  {
    outbox := [];
    var invalid := CheckSubmission(b);
    if invalid.Some? {
      resp := invalid.value;
      return;
    }
    var record := NewContact(b, now);
    if !insertOk {
      resp := Response(500, false, ProcessingFailed, None);
      return;
    }
    var id := db.InsertOne(record);
    if mailer.Mailer? {
      // a failed send (`!mailer.sendOk`) is only logged: the message is already stored
      outbox := NotificationMails(record, mailer.adminAddress);
    }
    resp := Response(200, true, Received, Some(id));
  }

  /** `PATCH /api/contact/:id/status`. `id` is the parsed identifier, `None` when the
      path segment is not a valid object identifier (whose constructor then throws).
      The status is checked first, before the collection is touched. */
  method PatchStatus(db: ContactsCollection, id: Option<nat>, status: Option<string>, now: int)
    returns (resp: Response)
    requires db.Valid()
    modifies db`contacts
    ensures db.Valid()
    ensures ParseStatus(status).None? ==>
      resp == Response(400, false, InvalidStatus, None) && db.contacts == old(db.contacts)
    ensures ParseStatus(status).Some? && id.None? ==>
      resp == Response(500, false, UpdateFailed, None) && db.contacts == old(db.contacts)
    ensures ParseStatus(status).Some? && id.Some? && id.value !in old(db.contacts) ==>
      resp == Response(404, false, NotFound, None) && db.contacts == old(db.contacts)
    ensures ParseStatus(status).Some? && id.Some? && id.value in old(db.contacts) ==>
      && resp == Response(200, true, StatusUpdated, None)
      && db.contacts == old(db.contacts)[id.value :=
           old(db.contacts)[id.value].(status := ParseStatus(status).value, updatedAt := Some(now))]
  {
    var st := ParseStatus(status);
    if st.None? {
      return Response(400, false, InvalidStatus, None);
    }
    if id.None? {
      return Response(500, false, UpdateFailed, None);
    }
    var matched := db.UpdateOne(id.value, st.value, now);
    if !matched {
      return Response(404, false, NotFound, None);
    }
    resp := Response(200, true, StatusUpdated, None);
  }
}

=== FILE: courses.dfy ===
/** The course documents the student dashboard and the enroll button read. One record
    type serves both the catalog (`CoursesHub`) and the learner's enrolled courses,
    as the JavaScript objects do; fields that a `|| default` guards are modelled with
    that default built in or as an `Option`. */
module Courses {

  import opened Wrappers

  /** Progress on one content item of a module. */
  datatype ContentProgress = ContentProgress(
    contentId: string,
    completed: bool,
    lastAccessedAt: Option<int>)        // milliseconds since the epoch; None when absent

  /** Progress on one module (`contentProgress || []`). */
  datatype ModuleProgress = ModuleProgress(contentProgress: seq<ContentProgress>)

  datatype Course = Course(
    id: string,                         // `_id`
    key: string,                        // the key used in routes and remote calls
    title: string,
    category: string,                   // `category || ""`: the empty string when absent
    certificateIssued: bool,
    lastAccessedAt: Option<int>,        // learner overlay, milliseconds since the epoch
    moduleProgress: seq<ModuleProgress>, // `(enrollment || {}).moduleProgress || []`
    enrolled: Option<int>,              // enrolment counter, possibly absent
    enrolledStudents: Option<seq<string>>,
    isEnrolled: bool)
}

=== FILE: dashboard.dfy ===
/** The student dashboard's derivations from the learner's enrolled courses and the
    course catalog: the category list, the summary statistics with the streak
    heuristic, the related-course recommender, the recent-activity feed, the
    category filter and the "Today"/"Yesterday" label. The clock is an input (`now`,
    milliseconds since the epoch) and the local time zone a fixed offset. */
module Dashboard {

  import opened Wrappers
  import opened Text
  import opened Seqs
  import opened Courses

  /** `1000 * 60 * 60 * 24` */
  const MsPerDay: int := 86400000

  function Min(a: int, b: int): int { if a <= b then a else b }
  function Max(a: int, b: int): int { if a >= b then a else b }

  /** The lower-cased category (`(course.category || "").toLowerCase()`). */
  function CategoryKey(c: Course): (key: string)
    ensures |key| == |c.category| && (key == "" <==> c.category == "")
    ensures forall i :: 0 <= i < |key| ==> !('A' <= key[i] <= 'Z')
  {
    Lower(c.category)
  }

  // ---------------------------------------------------------------- categories

  /** `[...new Set(courses.map(CategoryKey).filter(cat => cat))]`: the distinct
      non-empty lower-cased categories, each at its first occurrence. */
  function Categories(courses: seq<Course>): (r: seq<string>)
    ensures forall i :: 0 <= i < |r| ==> r[i] != ""
    ensures forall i, j :: 0 <= i < j < |r| ==> r[i] != r[j]
    ensures forall i :: 0 <= i < |r| ==>
      exists k :: 0 <= k < |courses| && CategoryKey(courses[k]) == r[i]
    ensures forall k :: 0 <= k < |courses| && CategoryKey(courses[k]) != "" ==>
      CategoryKey(courses[k]) in r
  {
    if courses == [] then []
    else
      var front := courses[..|courses| - 1];
      var r := Categories(front);
      var c := CategoryKey(courses[|courses| - 1]);
      assert forall k :: 0 <= k < |front| ==> front[k] == courses[k];
      if c == "" || c in r then r else r + [c]
  }

  // ---------------------------------------------------------------- statistics

  datatype Goals = Goals(completed: nat, total: nat)

  datatype Stats = Stats(
    totalEnrolled: nat,
    certificatesEarned: nat,
    learningGoals: Goals,
    learningStreak: nat)

  /** The statistics before the first computation. */
  const InitialStats := Stats(0, 0, Goals(0, 4), 0)

  function HasCertificate(c: Course): bool {
    c.certificateIssued
  }

  /** The summary figures: the enrolment count, the number of courses with a
      certificate (never more than the enrolment count, and zero exactly when no course
      has one), the fixed `min(2, n)` of 4 goals and the streak, which lies in 0..8. */
  function ComputeStats(courses: seq<Course>, now: int, utcOffset: int): (r: Stats)
    ensures r.totalEnrolled == |courses|
    ensures r.certificatesEarned <= r.totalEnrolled
    ensures r.certificatesEarned == 0 <==> forall k :: 0 <= k < |courses| ==> !courses[k].certificateIssued
    ensures r.learningGoals.completed == Min(2, |courses|) && r.learningGoals.total == 4
    ensures r.learningGoals.completed <= r.learningGoals.total
    ensures r.certificatesEarned == |set k | 0 <= k < |courses| && courses[k].certificateIssued|
    ensures r.learningStreak == Streak(courses, now, utcOffset) && r.learningStreak <= 8
  {
    var certified := Filter(courses, HasCertificate);
    assert certified != [] ==> certified[0] in courses;
    CertifiedCount(courses, |courses|);
    assert courses[..|courses|] == courses;
    Stats(
      |courses|,
      |certified|,
      Goals(Min(2, |courses|), 4),
      Streak(courses, now, utcOffset))
  }

  /** Counting the certified courses among the first `n` by filtering agrees with
      counting their positions. */
  lemma {:induction false} CertifiedCount(courses: seq<Course>, n: nat)
    requires n <= |courses|
    ensures |Filter(courses[..n], HasCertificate)| == |set k | 0 <= k < n && courses[k].certificateIssued|
  {
    if n > 0 {
      CertifiedCount(courses, n - 1);
      assert courses[..n] == courses[..n - 1] + [courses[n - 1]];
      FilterConcat(courses[..n - 1], [courses[n - 1]], HasCertificate);
      var before := set k | 0 <= k < n - 1 && courses[k].certificateIssued;
      var upTo := set k | 0 <= k < n && courses[k].certificateIssued;
      if courses[n - 1].certificateIssued {
        assert upTo == before + {n - 1};
        assert n - 1 !in before;
      } else {
        assert upTo == before;
      }
    }
  }

  /** `new Date(course.lastAccessedAt || 0)`: a missing time counts as the epoch. */
  function AccessTime(c: Course): int {
    c.lastAccessedAt.GetOr(0)
  }

  /** The access time is the stored one when present and the epoch otherwise. */
  lemma AccessTimeDefault(c: Course)
    ensures c.lastAccessedAt.Some? ==> AccessTime(c) == c.lastAccessedAt.value
    ensures c.lastAccessedAt.None? ==> AccessTime(c) == 0
  {
  }

  /** The access time of the first course once the courses are sorted newest first:
      the latest access time among them. */
  function LatestAccess(courses: seq<Course>): (t: int)
    requires courses != []
    ensures forall k :: 0 <= k < |courses| ==> AccessTime(courses[k]) <= t
    ensures exists k :: 0 <= k < |courses| && AccessTime(courses[k]) == t
  {
    if |courses| == 1 then AccessTime(courses[0])
    else
      var rest := LatestAccess(courses[1..]);
      assert forall k :: 1 <= k < |courses| ==> courses[k] == courses[1..][k - 1];
      if AccessTime(courses[0]) >= rest then AccessTime(courses[0]) else rest
  }

  /** The local calendar day of a time (`toDateString`), for a zone `utcOffset`
      milliseconds ahead of UTC. */
  function DayOf(ts: int, utcOffset: int): (d: int)
    ensures d * MsPerDay <= ts + utcOffset < (d + 1) * MsPerDay
  {
    (ts + utcOffset) / MsPerDay
  }

  /** `calculateStreak`: no courses give 0; otherwise twice the number of courses,
      clamped to 1..8, when the latest access falls on today's or yesterday's date,
      and 0 when it does not. */
  function Streak(courses: seq<Course>, now: int, utcOffset: int): (r: nat)
    ensures r <= 8
    ensures courses == [] ==> r == 0
    ensures r != 0 ==> 2 <= r
  {
    if courses == [] then 0
    else
      var latest := DayOf(LatestAccess(courses), utcOffset);
      var today := DayOf(now, utcOffset);
      if latest == today || latest == today - 1 then Max(1, Min(2 * |courses|, 8)) else 0
  }

  lemma DayOfMonotone(a: int, b: int, utcOffset: int)
    requires a <= b
    ensures DayOf(a, utcOffset) <= DayOf(b, utcOffset)
  {
  }

  /** A course accessed today or yesterday, and none accessed on a later date, make the
      streak twice the course count, capped at 8. */
  lemma StreakActive(courses: seq<Course>, now: int, utcOffset: int, k: nat)
    requires k < |courses|
    requires DayOf(AccessTime(courses[k]), utcOffset) >= DayOf(now, utcOffset) - 1
    requires forall j :: 0 <= j < |courses| ==>
      DayOf(AccessTime(courses[j]), utcOffset) <= DayOf(now, utcOffset)
    ensures Streak(courses, now, utcOffset) == Min(2 * |courses|, 8)
  {
    var t := LatestAccess(courses);
    var j :| 0 <= j < |courses| && AccessTime(courses[j]) == t;
    DayOfMonotone(AccessTime(courses[k]), t, utcOffset);
  }

  /** When every course was last accessed before yesterday's date, the streak is 0. */
  lemma StreakStale(courses: seq<Course>, now: int, utcOffset: int)
    requires forall j :: 0 <= j < |courses| ==>
      DayOf(AccessTime(courses[j]), utcOffset) < DayOf(now, utcOffset) - 1
    ensures Streak(courses, now, utcOffset) == 0
  {
    if courses != [] {
      var t := LatestAccess(courses);
      var j :| 0 <= j < |courses| && AccessTime(courses[j]) == t;
    }
  }

  /** The streak is non-zero exactly when some course was accessed today or yesterday
      and none on a date after today (a clock behind the stored times gives 0). */
  lemma StreakPositive(courses: seq<Course>, now: int, utcOffset: int)
    ensures Streak(courses, now, utcOffset) != 0 <==>
      (exists k :: 0 <= k < |courses| && DayOf(AccessTime(courses[k]), utcOffset) >= DayOf(now, utcOffset) - 1)
      && (forall j :: 0 <= j < |courses| ==> DayOf(AccessTime(courses[j]), utcOffset) <= DayOf(now, utcOffset))
  {
    if courses != [] {
      var t := LatestAccess(courses);
      var m :| 0 <= m < |courses| && AccessTime(courses[m]) == t;
      forall j | 0 <= j < |courses|
        ensures DayOf(AccessTime(courses[j]), utcOffset) <= DayOf(t, utcOffset)
      {
        DayOfMonotone(AccessTime(courses[j]), t, utcOffset);
      }
    }
  }

  /** A course dated after today makes the streak 0, whatever the other courses. */
  lemma StreakAhead(courses: seq<Course>, now: int, utcOffset: int, k: nat)
    requires k < |courses| && DayOf(AccessTime(courses[k]), utcOffset) > DayOf(now, utcOffset)
    ensures Streak(courses, now, utcOffset) == 0
  {
    StreakPositive(courses, now, utcOffset);
  }

  // ---------------------------------------------------------------- related courses

  /** `!enrolledCourseIds.has(course._id) && uniqueCategories.includes(CategoryKey(course))` */
  function IsRelated(enrolled: seq<Course>, c: Course): (b: bool)
    ensures b ==> CategoryKey(c) != ""
    ensures b ==> forall k :: 0 <= k < |enrolled| ==> enrolled[k] != c
    ensures enrolled == [] ==> !b
  {
    (forall k :: 0 <= k < |enrolled| ==> enrolled[k].id != c.id)
    && CategoryKey(c) in Categories(enrolled)
  }

  /** Every catalog course related to the enrolled ones, in catalog order. */
  function RelatedMatches(enrolled: seq<Course>, catalog: seq<Course>): seq<Course> {
    Filter(catalog, c => IsRelated(enrolled, c))
  }

  /** The recommender: at most three catalog courses, not enrolled, in an enrolled
      category (exact membership), in catalog order, the first three that qualify. */
  function RelatedCourses(enrolled: seq<Course>, catalog: seq<Course>): (r: seq<Course>)
    ensures |r| <= 3
    ensures forall i :: 0 <= i < |r| ==> r[i] in catalog
    ensures forall i, k :: 0 <= i < |r| && 0 <= k < |enrolled| ==> r[i].id != enrolled[k].id
    ensures forall i :: 0 <= i < |r| ==> CategoryKey(r[i]) in Categories(enrolled)
    ensures IsSubsequence(r, catalog)
    ensures Categories(enrolled) == [] ==> r == []
    ensures |r| < 3 ==> forall j :: 0 <= j < |catalog| && IsRelated(enrolled, catalog[j]) ==> catalog[j] in r
    ensures forall j ::
      (0 <= j < |catalog| && IsRelated(enrolled, catalog[j]) && |RelatedMatches(enrolled, catalog[..j])| < 3)
      ==> catalog[j] in r
  {
    var matches := RelatedMatches(enrolled, catalog);
    var r := Take(matches, 3);
    FilterIsSubsequence(catalog, c => IsRelated(enrolled, c));
    PrefixIsSubsequence(matches, catalog, |r|);
    assert forall i :: 0 <= i < |r| ==> r[i] == matches[i];
    forall j | 0 <= j < |catalog| && IsRelated(enrolled, catalog[j]) && |RelatedMatches(enrolled, catalog[..j])| < 3
      ensures catalog[j] in r
    {
      RelatedKeptAt(enrolled, catalog, j);
    }
    r
  }

  /** The recommendation is the first three matches, position by position: a related
      catalog course with `n < 3` related courses before it is the recommendation at
      index `n`, so a course listed twice in the catalog is recommended twice. */
  lemma RelatedFirstThree(enrolled: seq<Course>, catalog: seq<Course>, j: nat)
    requires j < |catalog| && IsRelated(enrolled, catalog[j])
    requires |RelatedMatches(enrolled, catalog[..j])| < 3
    ensures |RelatedMatches(enrolled, catalog[..j])| < |RelatedCourses(enrolled, catalog)|
    ensures RelatedCourses(enrolled, catalog)[|RelatedMatches(enrolled, catalog[..j])|] == catalog[j]
  {
    RelatedKeptAt(enrolled, catalog, j);
  }

  /** A related course sits in the list of matches right after the matches before it. */
  lemma RelatedKeptAt(enrolled: seq<Course>, catalog: seq<Course>, j: nat)
    requires j < |catalog| && IsRelated(enrolled, catalog[j])
    ensures |RelatedMatches(enrolled, catalog[..j])| < |RelatedMatches(enrolled, catalog)|
    ensures RelatedMatches(enrolled, catalog)[|RelatedMatches(enrolled, catalog[..j])|] == catalog[j]
  {
    var p := c => IsRelated(enrolled, c);
    assert catalog == catalog[..j] + catalog[j..];
    FilterConcat(catalog[..j], catalog[j..], p);
    assert catalog[j..] == [catalog[j]] + catalog[j + 1..];
    FilterConcat([catalog[j]], catalog[j + 1..], p);
    assert Filter([catalog[j]], p) == [catalog[j]] by {
      assert [catalog[j]][1..] == [];
    }
  }

  // ---------------------------------------------------------------- category filter

  /** `filteredCourses`: with "all" every course; otherwise the courses whose
      lower-cased category contains the selection (substring, not equality), in order. */
  function FilterByCategory(courses: seq<Course>, active: string): (r: seq<Course>)
    ensures active == "all" ==> r == courses
    ensures active != "all" ==> forall i :: 0 <= i < |r| ==>
      r[i] in courses && Contains(CategoryKey(r[i]), active)
    ensures active != "all" ==> forall k :: 0 <= k < |courses| && Contains(CategoryKey(courses[k]), active) ==>
      courses[k] in r
    ensures active != "all" ==>
      forall c :: multiset(r)[c] == (if Contains(CategoryKey(c), active) then multiset(courses)[c] else 0)
    ensures IsSubsequence(r, courses)
  {
    if active == "all" then
      AllIsSubsequence(courses);
      courses
    else
      FilterIsSubsequence(courses, c => Contains(CategoryKey(c), active));
      FilterCounts(courses, c => Contains(CategoryKey(c), active));
      Filter(courses, c => Contains(CategoryKey(c), active))
  }

  lemma {:induction false} AllIsSubsequence(xs: seq<Course>)
    ensures IsSubsequence(xs, xs)
  {
    if xs != [] {
      AllIsSubsequence(xs[1..]);
    }
  }

  /** Selecting one of the listed categories shows at least every course of exactly that
      category; substring matching may show more. */
  lemma FilterShowsCategory(courses: seq<Course>, active: string, k: nat)
    requires k < |courses| && CategoryKey(courses[k]) == active
    ensures courses[k] in FilterByCategory(courses, active)
  {
    assert OccursAt(CategoryKey(courses[k]), active, 0);
  }

  // ---------------------------------------------------------------- date label

  datatype DateLabel = Today | Yesterday | LocaleDate(timestamp: int)

  /** `formatDate`: counts whole elapsed 24-hour periods (`Math.floor`), not calendar
      days: "Today" within 24 hours before `now`, "Yesterday" within the 24 hours
      before that, otherwise the date itself (locale formatting is not modelled). */
  function FormatDate(ts: int, now: int): (r: DateLabel)
    ensures r == Today <==> 0 <= now - ts < MsPerDay
    ensures r == Yesterday <==> MsPerDay <= now - ts < 2 * MsPerDay
    ensures r.LocaleDate? ==> r.timestamp == ts
  {
    var diffDays := (now - ts) / MsPerDay;
    if diffDays == 0 then Today
    else if diffDays == 1 then Yesterday
    else LocaleDate(ts)
  }
}

=== FILE: dashboard_page.dfy ===
/** The dashboard component's state and the effect that recomputes it whenever the
    enrolled courses, the catalog or the token change. */
module DashboardPage {

  import opened Wrappers
  import opened Text
  import opened Courses
  import opened Seqs
  import opened Dashboard
  import opened RecentActivity

  class DashboardView {
    var loading: bool
    var activeCategory: string
    var categories: seq<string>
    var stats: Stats
    var relatedCourses: seq<Course>
    var recentActivities: seq<Activity>

    /** The initial `useState` values. */
    constructor ()
      ensures loading && activeCategory == "all" && categories == []
      ensures stats == InitialStats && relatedCourses == [] && recentActivities == []
    {
      loading := true;
      activeCategory := "all";
      categories := [];
      stats := InitialStats;
      relatedCourses := [];
      recentActivities := [];
    }

    /** The effect body. Without a token nothing is recomputed (and `loading` keeps its
        value); otherwise every derived field is recomputed from `enrolledCourses || []`
        and the catalog, and `loading` ends false. The selected category is kept. */
    method Refresh(token: Option<string>, enrolledCourses: Option<seq<Course>>, catalog: seq<Course>,
                   now: int, utcOffset: int)
      modifies this
      ensures !Truthy(token) ==> unchanged(this)
      ensures Truthy(token) ==>
        var courses := enrolledCourses.GetOr([]);
        && !loading
        && activeCategory == old(activeCategory)
        && categories == Categories(courses)
        && stats == ComputeStats(courses, now, utcOffset)
        && relatedCourses == RelatedCourses(courses, catalog)
        && recentActivities == Take(SortByRecency(FeedActivities(courses)), 3)
    {
      if !Truthy(token) {
        return;
      }
      loading := true;
      Recompute(enrolledCourses.GetOr([]), catalog, now, utcOffset);
      loading := false;
    }

    /** The body of the effect's `try` block: every derived field from the courses and
        the catalog. */
    method Recompute(courses: seq<Course>, catalog: seq<Course>, now: int, utcOffset: int)
      modifies this`categories, this`stats, this`relatedCourses, this`recentActivities
      ensures categories == Categories(courses)
      ensures stats == ComputeStats(courses, now, utcOffset)
      ensures relatedCourses == RelatedCourses(courses, catalog)
      ensures recentActivities == Take(SortByRecency(FeedActivities(courses)), 3)
    {
      categories := Categories(courses);
      stats := ComputeStats(courses, now, utcOffset);
      relatedCourses := RelatedCourses(courses, catalog);
      recentActivities := RecentActivities(courses);
    }

    /** A category button or the dropdown sets the selection. */
    method SelectCategory(category: string)
      modifies this`activeCategory
      ensures activeCategory == category
    {
      activeCategory := category;
    }

    /** The courses listed under the current selection. */
    function ShownCourses(enrolledCourses: seq<Course>): (r: seq<Course>)
      reads this`activeCategory
      ensures activeCategory == "all" ==> r == enrolledCourses
      ensures IsSubsequence(r, enrolledCourses)
    {
      FilterByCategory(enrolledCourses, activeCategory)
    }
  }
}

=== FILE: email.dfy ===
/** The e-mail pattern `^[^\s@]+@[^\s@]+\.[^\s@]+$` that both the contact page and the
    contact endpoint apply. */
module Email {

  import opened Text

  /** A character of the class `[^\s@]`. */
  predicate Plain(c: char) {
    !IsSpace(c) && c != '@'
  }

  predicate AllPlain(s: string) {
    forall k :: 0 <= k < |s| ==> Plain(s[k])
  }

  /** The pattern matches `s` with its `@` at index `at` and its `\.` at index `dot`:
      three non-empty runs of `[^\s@]` around them. */
  predicate SplitsAt(s: string, at: int, dot: int) {
    0 < at && at + 1 < dot && dot + 1 < |s|
    && s[at] == '@' && s[dot] == '.'
    && AllPlain(s[..at]) && AllPlain(s[at + 1..dot]) && AllPlain(s[dot + 1..])
  }

  /** `emailRegex.test(s)`: some choice of the `@` and the `.` makes the whole string match. */
  function MatchesPattern(s: string): (b: bool)
    ensures b ==> 5 <= |s| && '@' in s && '.' in s
  {
    var b := exists at, dot | 0 <= at < |s| && 0 <= dot < |s| :: SplitsAt(s, at, dot);
    assert b ==> 5 <= |s| && '@' in s && '.' in s by {
      if b {
        var at, dot :| 0 <= at < |s| && 0 <= dot < |s| && SplitsAt(s, at, dot);
        assert s[at] == '@' && s[dot] == '.';
      }
    }
    b
  }

  /** What a matching address looks like: no white space anywhere, exactly one `@`,
      not in first position, and a `.` strictly inside the part after it; and every
      string of that shape matches. */
  lemma PatternShape(s: string)
    ensures MatchesPattern(s) <==>
      (forall k :: 0 <= k < |s| ==> !IsSpace(s[k]))
      && exists at, dot :: 0 < at && at + 1 < dot < |s| - 1 && s[at] == '@' && s[dot] == '.'
           && (forall k :: 0 <= k < |s| && k != at ==> s[k] != '@')
  {
    if MatchesPattern(s) {
      var at, dot :| 0 <= at < |s| && 0 <= dot < |s| && SplitsAt(s, at, dot);
      forall k | 0 <= k < |s| && k != at ensures Plain(s[k]) {
        if k < at {
          assert s[k] == s[..at][k];
        } else if k < dot {
          assert s[k] == s[at + 1..dot][k - at - 1];
        } else if k > dot {
          assert s[k] == s[dot + 1..][k - dot - 1];
        }
      }
    }
    if (forall k :: 0 <= k < |s| ==> !IsSpace(s[k]))
      && exists at, dot :: 0 < at && at + 1 < dot < |s| - 1 && s[at] == '@' && s[dot] == '.'
           && (forall k :: 0 <= k < |s| && k != at ==> s[k] != '@')
    {
      var at, dot :| 0 < at && at + 1 < dot < |s| - 1 && s[at] == '@' && s[dot] == '.'
           && (forall k :: 0 <= k < |s| && k != at ==> s[k] != '@');
      assert SplitsAt(s, at, dot);
    }
  }

  /** A matching address is not blank, so it also passes every presence check. */
  lemma PatternNotBlank(s: string)
    requires MatchesPattern(s)
    ensures !IsBlank(s) && s != ""
  {
    var at, dot :| 0 <= at < |s| && 0 <= dot < |s| && SplitsAt(s, at, dot);
    assert s[0] == s[..at][0];
    assert !IsSpace(s[0]);
  }
}

=== FILE: enroll_button.dfy ===
/** The enroll button and its enrolment workflow. A click routes to the login page, to
    the course content, or opens the enrolment dialog; confirming the dialog runs the
    attempt: the remote enrolment (whose failure ends the attempt), the best-effort
    notification subscription (whose failure is swallowed), the success toast, closing
    the dialog, the optimistic patch of the cached catalog, the reload of the learner's
    data and the navigation to the content.

    Each `await` is a point where the attempt waits for a remote call; the model gives
    the component one event per outcome (`EnrollReturned`, `SubscribeReturned`,
    `ReloadReturned`) and keeps the point reached in `phase`. `Step` is the
    specification of every transition; `EnrollButtonView` is the component, whose
    methods are proved to perform exactly `Step`. Remote calls and navigation are
    recorded, in order, as effects. */
module EnrollButton {

  import opened Wrappers
  import opened Text
  import opened Courses

  datatype User = User(id: string)

  /** What the component reads from its props and from the application context. */
  datatype Props = Props(user: Option<User>, course: Course, isEnrolled: bool)

  datatype Variant = Success | Destructive

  /** What the outside world observes, in order. */
  datatype Effect =
    | Navigate(path: string, from: Option<string>)   // `navigate(path, { state: { from } })`
    | CallEnroll(courseKey: string)                   // `enrollInCourse(course.key, token)`
    | CallSubscribe(courseKey: string)                // `subscribeToCourseNotifications(course.key, token)`
    | CallReload(userId: string)                      // `packLoad(user)`
    | Toast(variant: Variant, title: string, description: string)

  /** The outcome of a remote call: a rejection may carry the server's message
      (`error.response?.data?.message`). */
  datatype Remote = Ok | Failed(serverMessage: Option<string>)

  datatype Phase = Idle | AwaitingEnroll | AwaitingSubscribe | AwaitingReload

  datatype Event =
    | Click                               // `handleButtonClick`
    | Confirm                             // the dialog's `onConfirm`: `handleEnrollment`
    | Dismiss                             // the dialog's `onOpenChange(false)`
    | EnrollReturned(enroll: Remote)
    | SubscribeReturned(subscribe: Remote)
    | ReloadReturned(reload: Remote)

  datatype ButtonState = ButtonState(
    loading: bool,
    showDialog: bool,
    phase: Phase,
    hub: seq<Course>,                     // the cached catalog, `CoursesHub`
    effects: seq<Effect>)

  const SuccessTitle := "Enrollment successful!"
  const SuccessText := "You have been enrolled in this course. You can now access all course materials."
  const FailureTitle := "Enrollment failed"
  const FallbackText := "Something went wrong. Please try again."

  function LoginPath(): string { "/login" }
  function CoursePath(key: string): string { "/courses/" + key }
  function ContentPath(key: string): string { "/student/courses/" + key }

  /** The failure toast's description: the server's message when there is a non-empty
      one, otherwise the fallback text; never empty. */
  function FailureMessage(serverMessage: Option<string>): (r: string)
    ensures r != ""
    ensures Truthy(serverMessage) ==> r == serverMessage.value
    ensures !Truthy(serverMessage) ==> r == FallbackText
  {
    if Truthy(serverMessage) then serverMessage.value else FallbackText
  }

  /** One course after the optimistic patch (`{...c, enrolled, enrolledStudents, isEnrolled}`). */
  function PatchCourse(c: Course, userId: string): Course {
    c.(enrolled := Some(c.enrolled.GetOr(0) + 1),
       enrolledStudents := Some(c.enrolledStudents.GetOr([]) + [userId]),
       isEnrolled := true)
  }

  /** `CoursesHub.map(...)`: the same courses in the same order; exactly those whose
      `_id` matches change, each gaining one enrolment (a missing counter counts as 0),
      the learner at the end of its student list, and the enrolled mark. */
  function Patch(hub: seq<Course>, courseId: string, userId: string): (r: seq<Course>)
    ensures |r| == |hub|
    ensures forall i :: 0 <= i < |hub| ==> r[i].id == hub[i].id
    ensures forall i :: 0 <= i < |hub| ==> (r[i] != hub[i] <==> hub[i].id == courseId)
    ensures forall i :: 0 <= i < |hub| && hub[i].id == courseId ==>
      && r[i].enrolled == Some(hub[i].enrolled.GetOr(0) + 1)
      && r[i].enrolledStudents == Some(hub[i].enrolledStudents.GetOr([]) + [userId])
      && r[i].isEnrolled
      && r[i] == hub[i].(enrolled := r[i].enrolled, enrolledStudents := r[i].enrolledStudents,
                         isEnrolled := true)
  {
    seq(|hub|, i requires 0 <= i < |hub| =>
      if hub[i].id == courseId then PatchCourse(hub[i], userId) else hub[i])
  }

  /** What the component keeps true: it is busy exactly while an attempt waits for a
      remote call, and the dialog and an attempt exist only for a signed-in user. */
  predicate Inv(p: Props, s: ButtonState) {
    && (s.loading <==> s.phase != Idle)
    && (s.phase != Idle ==> p.user.Some?)
    && (s.showDialog ==> p.user.Some?)
  }

  /** The end of an attempt that failed: a destructive toast, the component not busy. */
  function Fail(s: ButtonState, serverMessage: Option<string>): ButtonState {
    s.(effects := s.effects + [Toast(Destructive, FailureTitle, FailureMessage(serverMessage))],
       loading := false,
       phase := Idle)
  }

  /** Every transition of the component. While it is busy the button is disabled, and
      the dialog passes the busy flag on, so clicks and confirmations are ignored. */
  function Step(p: Props, s: ButtonState, e: Event): (r: ButtonState)
    requires Inv(p, s)
    ensures Inv(p, r)
    ensures |s.effects| <= |r.effects| && r.effects[..|s.effects|] == s.effects
  {
    var key := p.course.key;
    match e
    case Click =>
      if s.loading then s
      else if p.user.None? then s.(effects := s.effects + [Navigate(LoginPath(), Some(CoursePath(key)))])
      else if p.isEnrolled then s.(effects := s.effects + [Navigate(ContentPath(key), None)])
      else s.(showDialog := true)
    case Confirm =>
      if s.loading || !s.showDialog then s
      else s.(loading := true, phase := AwaitingEnroll, effects := s.effects + [CallEnroll(key)])
    case Dismiss =>
      s.(showDialog := false)
    case EnrollReturned(r) =>
      if s.phase != AwaitingEnroll then s
      else if r.Ok? then s.(phase := AwaitingSubscribe, effects := s.effects + [CallSubscribe(key)])
      else Fail(s, r.serverMessage)
    case SubscribeReturned(_) =>
      if s.phase != AwaitingSubscribe then s
      else
        var uid := p.user.value.id;
        s.(effects := s.effects + [Toast(Success, SuccessTitle, SuccessText), CallReload(uid)],
           showDialog := false,
           hub := if |s.hub| > 0 then Patch(s.hub, p.course.id, uid) else s.hub,
           phase := AwaitingReload)
    case ReloadReturned(r) =>
      if s.phase != AwaitingReload then s
      else if r.Ok? then
        s.(effects := s.effects + [Navigate(ContentPath(key), None)], loading := false, phase := Idle)
      else Fail(s, r.serverMessage)
  }

  /** The states after a sequence of events. */
  function Run(p: Props, s: ButtonState, events: seq<Event>): (r: ButtonState)
    requires Inv(p, s)
    ensures Inv(p, r)
    ensures |s.effects| <= |r.effects| && r.effects[..|s.effects|] == s.effects
    decreases |events|
  {
    if events == [] then s
    else
      var t := Step(p, s, events[0]);
      var r := Run(p, t, events[1..]);
      assert r.effects[..|s.effects|] == r.effects[..|t.effects|][..|s.effects|];
      r
  }

  lemma RunOne(p: Props, s: ButtonState, e: Event)
    requires Inv(p, s)
    ensures Run(p, s, [e]) == Step(p, s, e)
  {
    assert [e][1..] == [];
  }

  /** Running a sequence is taking its first step and running the rest. */
  lemma RunCons(p: Props, s: ButtonState, e: Event, rest: seq<Event>)
    requires Inv(p, s)
    ensures Run(p, s, [e] + rest) == Run(p, Step(p, s, e), rest)
  {
    assert ([e] + rest)[1..] == rest;
  }

  /** Running two events is stepping through them one by one. */
  lemma RunTwo(p: Props, s: ButtonState, a: Event, b: Event)
    requires Inv(p, s)
    ensures Run(p, s, [a, b]) == Step(p, Step(p, s, a), b)
  {
    assert [a, b] == [a] + [b];
    RunCons(p, s, a, [b]);
    RunOne(p, Step(p, s, a), b);
  }

  /** Running three events is stepping through them one by one. */
  lemma RunThree(p: Props, s: ButtonState, a: Event, b: Event, c: Event)
    requires Inv(p, s)
    ensures Run(p, s, [a, b, c]) == Run(p, Step(p, Step(p, s, a), b), [c])
  {
    assert [a, b, c] == [a] + [b, c] && [b, c] == [b] + [c];
    RunCons(p, s, a, [b, c]);
    RunCons(p, Step(p, s, a), b, [c]);
  }

  /** The events of a whole attempt whose enrolment succeeds. */
  function SuccessfulAttempt(subscribe: Remote, reload: Remote): seq<Event> {
    [Confirm, EnrollReturned(Ok), SubscribeReturned(subscribe), ReloadReturned(reload)]
  }

  /** Without a signed-in user a click only navigates to the login page, remembering the
      course page to return to; the dialog stays as it was. */
  lemma ClickWithoutUser(p: Props, s: ButtonState)
    requires Inv(p, s) && !s.loading && p.user.None?
    ensures Step(p, s, Click) == s.(effects := s.effects + [Navigate("/login", Some("/courses/" + p.course.key))])
    ensures !Step(p, s, Click).showDialog
  {
  }

  /** A signed-in learner who is already enrolled is sent to the course content; the
      dialog stays as it was. */
  lemma ClickWhenEnrolled(p: Props, s: ButtonState)
    requires Inv(p, s) && !s.loading && p.user.Some? && p.isEnrolled
    ensures Step(p, s, Click) == s.(effects := s.effects + [Navigate("/student/courses/" + p.course.key, None)])
  {
  }

  /** A learner who is already enrolled is sent to the content: no click opens the dialog,
      and no sequence of events ever calls the enrolment. */
  lemma {:induction false} EnrolledNeverEnrolls(p: Props, s: ButtonState, events: seq<Event>)
    requires Inv(p, s) && p.isEnrolled && !s.showDialog && s.phase == Idle
    ensures !Run(p, s, events).showDialog && Run(p, s, events).phase == Idle
    ensures Run(p, s, events).hub == s.hub
    ensures forall k :: |s.effects| <= k < |Run(p, s, events).effects| ==>
      Run(p, s, events).effects[k].Navigate?
    decreases |events|
  {
    if events != [] {
      var t := Step(p, s, events[0]);
      EnrolledNeverEnrolls(p, t, events[1..]);
      var r := Run(p, t, events[1..]);
      forall k | |s.effects| <= k < |r.effects| ensures r.effects[k].Navigate? {
        if k < |t.effects| {
          assert r.effects[k] == r.effects[..|t.effects|][k] == t.effects[k];
        }
      }
    }
  }

  /** Otherwise a click opens the dialog and does nothing else. */
  lemma ClickOpensDialog(p: Props, s: ButtonState)
    requires Inv(p, s) && !s.loading && p.user.Some? && !p.isEnrolled
    ensures Step(p, s, Click) == s.(showDialog := true)
  {
  }

  /** While an attempt is running, clicks and confirmations change nothing: there is no
      second attempt. */
  lemma BusyIgnoresInput(p: Props, s: ButtonState)
    requires Inv(p, s) && s.loading
    ensures Step(p, s, Click) == s && Step(p, s, Confirm) == s
  {
  }

  /** A successful enrolment: the component is busy until the navigation and idle after
      it; the dialog is closed, the cached catalog patched (unless it was empty), and the
      world sees the enrolment call, the subscription call, the success toast, the reload
      and the navigation to the content, in that order, whatever the subscription's
      outcome. */
  lemma EnrolmentSucceeds(p: Props, s: ButtonState, subscribe: Remote)
    requires Inv(p, s) && s.showDialog && !s.loading
    ensures Run(p, s, [Confirm]).loading
    ensures Run(p, s, [Confirm, EnrollReturned(Ok)]).loading
    ensures Run(p, s, [Confirm, EnrollReturned(Ok), SubscribeReturned(subscribe)]).loading
    ensures Run(p, s, SuccessfulAttempt(subscribe, Ok)) ==
      var key := p.course.key;
      var uid := p.user.value.id;
      s.(loading := false, showDialog := false, phase := Idle,
         hub := if |s.hub| > 0 then Patch(s.hub, p.course.id, uid) else s.hub,
         effects := s.effects + [CallEnroll(key), CallSubscribe(key), Toast(Success, SuccessTitle, SuccessText),
                                 CallReload(uid), Navigate(ContentPath(key), None)])
  {
    var s1 := Step(p, s, Confirm);
    var s2 := Step(p, s1, EnrollReturned(Ok));
    var s3 := Step(p, s2, SubscribeReturned(subscribe));
    RunOne(p, s, Confirm);
    RunTwo(p, s, Confirm, EnrollReturned(Ok));
    RunThree(p, s, Confirm, EnrollReturned(Ok), SubscribeReturned(subscribe));
    RunOne(p, s2, SubscribeReturned(subscribe));
    assert SuccessfulAttempt(subscribe, Ok) == [Confirm] + [EnrollReturned(Ok), SubscribeReturned(subscribe), ReloadReturned(Ok)];
    RunCons(p, s, Confirm, [EnrollReturned(Ok), SubscribeReturned(subscribe), ReloadReturned(Ok)]);
    RunThree(p, s1, EnrollReturned(Ok), SubscribeReturned(subscribe), ReloadReturned(Ok));
    RunOne(p, s3, ReloadReturned(Ok));
  }

  /** A failed subscription is swallowed: the attempt goes on exactly as after a
      successful one. */
  lemma SubscribeFailureSwallowed(p: Props, s: ButtonState, serverMessage: Option<string>)
    requires Inv(p, s)
    ensures Step(p, s, SubscribeReturned(Failed(serverMessage))) == Step(p, s, SubscribeReturned(Ok))
  {
  }

  /** A failed enrolment: a destructive toast with the server's message or the fallback,
      the dialog left open for a retry, the catalog untouched and the component idle. */
  lemma EnrolmentFails(p: Props, s: ButtonState, serverMessage: Option<string>)
    requires Inv(p, s) && s.showDialog && !s.loading
    ensures Run(p, s, [Confirm, EnrollReturned(Failed(serverMessage))]) ==
      s.(effects := s.effects + [CallEnroll(p.course.key), Toast(Destructive, FailureTitle, FailureMessage(serverMessage))])
  {
    RunTwo(p, s, Confirm, EnrollReturned(Failed(serverMessage)));
  }

  /** A failed reload after a successful enrolment is reported as a failed enrolment,
      after the success toast, with the patch already applied and no navigation. */
  lemma ReloadFailureReportedAsFailure(p: Props, s: ButtonState, subscribe: Remote, serverMessage: Option<string>)
    requires Inv(p, s) && s.showDialog && !s.loading
    ensures Run(p, s, SuccessfulAttempt(subscribe, Failed(serverMessage))) ==
      var key := p.course.key;
      var uid := p.user.value.id;
      s.(loading := false, showDialog := false, phase := Idle,
         hub := if |s.hub| > 0 then Patch(s.hub, p.course.id, uid) else s.hub,
         effects := s.effects + [CallEnroll(key), CallSubscribe(key), Toast(Success, SuccessTitle, SuccessText),
                                 CallReload(uid), Toast(Destructive, FailureTitle, FailureMessage(serverMessage))])
  {
    var s1 := Step(p, s, Confirm);
    var s3 := Step(p, Step(p, s1, EnrollReturned(Ok)), SubscribeReturned(subscribe));
    assert SuccessfulAttempt(subscribe, Failed(serverMessage))
      == [Confirm] + [EnrollReturned(Ok), SubscribeReturned(subscribe), ReloadReturned(Failed(serverMessage))];
    RunCons(p, s, Confirm, [EnrollReturned(Ok), SubscribeReturned(subscribe), ReloadReturned(Failed(serverMessage))]);
    RunThree(p, s1, EnrollReturned(Ok), SubscribeReturned(subscribe), ReloadReturned(Failed(serverMessage)));
    RunOne(p, s3, ReloadReturned(Failed(serverMessage)));
  }

  /** The component: its state lives in fields that each handler updates in place. */
  class EnrollButtonView {
    const props: Props
    var loading: bool
    var showDialog: bool
    var phase: Phase
    var hub: seq<Course>
    var effects: seq<Effect>

    function State(): ButtonState
      reads this
    {
      ButtonState(loading, showDialog, phase, hub, effects)
    }

    ghost predicate Valid()
      reads this
    {
      Inv(props, State())
    }

    constructor (props: Props, hub: seq<Course>)
      ensures Valid() && this.props == props
      ensures State() == ButtonState(false, false, Idle, hub, [])
    {
      this.props := props;
      loading, showDialog, phase := false, false, Idle;
      this.hub := hub;
      effects := [];
    }

    method Click()
      requires Valid()
      modifies this
      ensures Valid() && State() == Step(props, old(State()), Event.Click)
    {
      if loading {
        return;   // the button is disabled
      }
      if props.user.None? {
        effects := effects + [Navigate(LoginPath(), Some(CoursePath(props.course.key)))];
        return;
      }
      if props.isEnrolled {
        effects := effects + [Navigate(ContentPath(props.course.key), None)];
        return;
      }
      showDialog := true;
    }

    method Confirm()
      requires Valid()
      modifies this
      ensures Valid() && State() == Step(props, old(State()), Event.Confirm)
    {
      if loading || !showDialog {
        return;
      }
      loading := true;
      phase := AwaitingEnroll;
      effects := effects + [CallEnroll(props.course.key)];
    }

    method Dismiss()
      requires Valid()
      modifies this
      ensures Valid() && State() == Step(props, old(State()), Event.Dismiss)
    {
      showDialog := false;
    }

    method EnrollReturned(r: Remote)
      requires Valid()
      modifies this
      ensures Valid() && State() == Step(props, old(State()), Event.EnrollReturned(r))
    {
      if phase != AwaitingEnroll {
        return;
      }
      match r
      case Ok =>
        effects := effects + [CallSubscribe(props.course.key)];
        phase := AwaitingSubscribe;
      case Failed(message) =>
        effects := effects + [Toast(Destructive, FailureTitle, FailureMessage(message))];
        loading := false;
        phase := Idle;
    }

    /** Whatever the subscription's outcome (a failure is only logged): the success
        toast, the dialog closed, the patch when the catalog is not empty, the reload. */
    method SubscribeReturned(r: Remote)
      requires Valid()
      modifies this
      ensures Valid() && State() == Step(props, old(State()), Event.SubscribeReturned(r))
    {
      if phase != AwaitingSubscribe {
        return;
      }
      effects := effects + [Toast(Success, SuccessTitle, SuccessText)];
      showDialog := false;
      var uid := props.user.value.id;
      if |hub| > 0 {
        hub := Patch(hub, props.course.id, uid);
      }
      effects := effects + [CallReload(uid)];
      phase := AwaitingReload;
    }

    method ReloadReturned(r: Remote)
      requires Valid()
      modifies this
      ensures Valid() && State() == Step(props, old(State()), Event.ReloadReturned(r))
    {
      if phase != AwaitingReload {
        return;
      }
      match r {
        case Ok =>
          effects := effects + [Navigate(ContentPath(props.course.key), None)];
        case Failed(message) =>
          effects := effects + [Toast(Destructive, FailureTitle, FailureMessage(message))];
      }
      loading := false;
      phase := Idle;
    }
  }
}

=== FILE: recent_activity.dfy ===
/** The dashboard's recent-activity feed: every completed content item that carries an
    access time, across all modules of all enrolled courses, newest first, at most
    three. The collection is built by nested loops that push onto a list, as the
    dashboard does; the list's built-in `sort` (stable, newest first) is modelled by
    the stable insertion sort `SortByRecency`. */
module RecentActivity {

  import opened Wrappers
  import opened Seqs
  import opened Courses

  datatype Activity = Activity(courseTitle: string, contentTitle: string, lastAccessedAt: int)

  /** The entry one content item contributes: one exactly when it has an access time
      and is completed. */
  function Emit(course: Course, p: ContentProgress): (r: Option<Activity>)
    ensures r.Some? <==> p.completed && p.lastAccessedAt.Some?
    ensures r.Some? ==> r.value == Activity(course.title, p.contentId, p.lastAccessedAt.value)
  {
    if p.lastAccessedAt.Some? && p.completed then
      Some(Activity(course.title, p.contentId, p.lastAccessedAt.value))
    else
      None
  }

  function EmitSeq(course: Course, p: ContentProgress): seq<Activity> {
    match Emit(course, p)
    case Some(a) => [a]
    case None => []
  }

  /** The entries of one module's content items, in order. */
  function ContentActivities(course: Course, ps: seq<ContentProgress>): seq<Activity> {
    if ps == [] then []
    else ContentActivities(course, ps[..|ps| - 1]) + EmitSeq(course, ps[|ps| - 1])
  }

  /** The entries of a course's modules, module by module. */
  function ModuleActivities(course: Course, ms: seq<ModuleProgress>): seq<Activity> {
    if ms == [] then []
    else ModuleActivities(course, ms[..|ms| - 1]) + ContentActivities(course, ms[|ms| - 1].contentProgress)
  }

  /** All entries, course by course. */
  function FeedActivities(courses: seq<Course>): seq<Activity> {
    if courses == [] then []
    else
      var last := courses[|courses| - 1];
      FeedActivities(courses[..|courses| - 1]) + ModuleActivities(last, last.moduleProgress)
  }

  /** An entry is emitted by some content item of some module of some course. */
  predicate EmittedBy(courses: seq<Course>, a: Activity) {
    exists c, i, j :: 0 <= c < |courses| && 0 <= i < |courses[c].moduleProgress|
      && 0 <= j < |courses[c].moduleProgress[i].contentProgress|
      && Emit(courses[c], courses[c].moduleProgress[i].contentProgress[j]) == Some(a)
  }

  lemma {:induction false} ContentMembers(course: Course, ps: seq<ContentProgress>)
    ensures forall a :: a in ContentActivities(course, ps) <==>
      exists j :: 0 <= j < |ps| && Emit(course, ps[j]) == Some(a)
  {
    if ps != [] {
      var front := ps[..|ps| - 1];
      ContentMembers(course, front);
      assert forall j :: 0 <= j < |front| ==> front[j] == ps[j];
    }
  }

  lemma {:induction false} ModuleMembers(course: Course, ms: seq<ModuleProgress>)
    ensures forall a :: a in ModuleActivities(course, ms) <==>
      exists i, j :: 0 <= i < |ms| && 0 <= j < |ms[i].contentProgress|
        && Emit(course, ms[i].contentProgress[j]) == Some(a)
  {
    if ms != [] {
      var front := ms[..|ms| - 1];
      ModuleMembers(course, front);
      ContentMembers(course, ms[|ms| - 1].contentProgress);
      assert forall i :: 0 <= i < |front| ==> front[i] == ms[i];
    }
  }

  /** The feed holds exactly the entries of completed content items that carry an access
      time, from every module of every course. */
  lemma {:induction false} FeedMembers(courses: seq<Course>)
    ensures forall a :: a in FeedActivities(courses) <==> EmittedBy(courses, a)
  {
    if courses != [] {
      var front := courses[..|courses| - 1];
      var last := courses[|courses| - 1];
      FeedMembers(front);
      ModuleMembers(last, last.moduleProgress);
      assert forall c :: 0 <= c < |front| ==> front[c] == courses[c];
    }
  }

  /** Newest first: `(a, b) => b.lastAccessedAt - a.lastAccessedAt`. */
  predicate SortedByRecency(s: seq<Activity>) {
    forall i, j :: 0 <= i < j < |s| ==> s[i].lastAccessedAt >= s[j].lastAccessedAt
  }

  /** An entry at least as recent as the head of a newest-first list may go in front. */
  lemma ConsSorted(h: Activity, t: seq<Activity>)
    requires SortedByRecency(t)
    requires t == [] || h.lastAccessedAt >= t[0].lastAccessedAt
    ensures SortedByRecency([h] + t)
  {
    var r := [h] + t;
    forall i, j | 0 <= i < j < |r| ensures r[i].lastAccessedAt >= r[j].lastAccessedAt {
      if i == 0 {
        assert r[j] == t[j - 1];
        assert t[0].lastAccessedAt >= t[j - 1].lastAccessedAt;
      } else {
        assert r[i] == t[i - 1] && r[j] == t[j - 1];
      }
    }
  }

  /** Inserts `x` into a newest-first list after every entry at least as recent. */
  function InsertByRecency(x: Activity, s: seq<Activity>): (r: seq<Activity>)
    requires SortedByRecency(s)
    ensures SortedByRecency(r)
    ensures multiset(r) == multiset(s) + multiset{x}
    ensures r[0] == x || (s != [] && r[0] == s[0])
  {
    if s == [] then [x]
    else if s[0].lastAccessedAt >= x.lastAccessedAt then
      var tail := s[1..];
      assert SortedByRecency(tail) by {
        assert forall i :: 0 <= i < |tail| ==> tail[i] == s[i + 1];
      }
      var rest := InsertByRecency(x, tail);
      assert s == [s[0]] + tail;
      assert tail != [] ==> s[0].lastAccessedAt >= tail[0].lastAccessedAt;
      ConsSorted(s[0], rest);
      [s[0]] + rest
    else
      ConsSorted(x, s);
      [x] + s
  }

  /** A stable sort, newest first: a permutation of its input, in non-increasing order
      of access time. */
  function SortByRecency(s: seq<Activity>): (r: seq<Activity>)
    ensures SortedByRecency(r)
    ensures multiset(r) == multiset(s)
  {
    if s == [] then []
    else
      var front := s[..|s| - 1];
      assert s == front + [s[|s| - 1]];
      InsertByRecency(s[|s| - 1], SortByRecency(front))
  }

  /** `activities.slice(0, 3)` after the sort keeps the newest entries: every entry left
      out is no more recent than any entry kept. */
  lemma {:induction false} NewestKept(all: seq<Activity>)
    ensures multiset(Take(SortByRecency(all), 3)) <= multiset(all)
    ensures forall a, k ::
      (a in multiset(all) - multiset(Take(SortByRecency(all), 3)) && 0 <= k < |Take(SortByRecency(all), 3)|)
      ==> a.lastAccessedAt <= Take(SortByRecency(all), 3)[k].lastAccessedAt
  {
    var sorted := SortByRecency(all);
    var r := Take(sorted, 3);
    var rest := sorted[|r|..];
    assert sorted == r + rest;
    assert multiset(all) == multiset(r) + multiset(rest);
    forall a, k | a in multiset(all) - multiset(r) && 0 <= k < |r|
      ensures a.lastAccessedAt <= r[k].lastAccessedAt
    {
      assert a in multiset(rest);
      var j :| 0 <= j < |rest| && rest[j] == a;
      assert sorted[|r| + j] == a && sorted[k] == r[k];
    }
  }

  lemma ContentStep(course: Course, ps: seq<ContentProgress>, i: nat)
    requires i < |ps|
    ensures ContentActivities(course, ps[..i + 1]) == ContentActivities(course, ps[..i]) + EmitSeq(course, ps[i])
  {
    assert ps[..i + 1][..i] == ps[..i];
  }

  lemma ModuleStep(course: Course, ms: seq<ModuleProgress>, m: nat)
    requires m < |ms|
    ensures ModuleActivities(course, ms[..m + 1])
         == ModuleActivities(course, ms[..m]) + ContentActivities(course, ms[m].contentProgress)
  {
    assert ms[..m + 1][..m] == ms[..m];
  }

  lemma FeedStep(courses: seq<Course>, c: nat)
    requires c < |courses|
    ensures FeedActivities(courses[..c + 1])
         == FeedActivities(courses[..c]) + ModuleActivities(courses[c], courses[c].moduleProgress)
  {
    assert courses[..c + 1][..c] == courses[..c];
  }

  /** The innermost `forEach`: the entries of one module's content items, pushed in
      order. */
  method CollectContent(course: Course, contents: seq<ContentProgress>) returns (pushed: seq<Activity>)
    ensures pushed == ContentActivities(course, contents)
  {
    pushed := [];
    var i := 0;
    while i < |contents|
      invariant 0 <= i <= |contents|
      invariant pushed == ContentActivities(course, contents[..i])
    {
      var content := contents[i];
      if content.lastAccessedAt.Some? && content.completed {
        pushed := pushed + [Activity(course.title, content.contentId, content.lastAccessedAt.value)];
      }
      ContentStep(course, contents, i);
      i := i + 1;
    }
    assert contents[..i] == contents;
  }

  /** The middle `forEach`: the entries of a course's modules, module by module. */
  method CollectModules(course: Course, modules: seq<ModuleProgress>) returns (pushed: seq<Activity>)
    ensures pushed == ModuleActivities(course, modules)
  {
    pushed := [];
    var m := 0;
    while m < |modules|
      invariant 0 <= m <= |modules|
      invariant pushed == ModuleActivities(course, modules[..m])
    {
      var fromModule := CollectContent(course, modules[m].contentProgress);
      pushed := pushed + fromModule;
      ModuleStep(course, modules, m);
      m := m + 1;
    }
    assert modules[..m] == modules;
  }

  /** The nested `forEach` loops: for each course, each module, each content item, push
      the entry of a completed item that has an access time. */
  method CollectActivities(courses: seq<Course>) returns (activities: seq<Activity>)
    ensures activities == FeedActivities(courses)
  {
    activities := [];
    var c := 0;
    while c < |courses|
      invariant 0 <= c <= |courses|
      invariant activities == FeedActivities(courses[..c])
    {
      var fromCourse := CollectModules(courses[c], courses[c].moduleProgress);
      activities := activities + fromCourse;
      FeedStep(courses, c);
      c := c + 1;
    }
    assert courses[..c] == courses;
  }

  /** A prefix of a newest-first list is newest first. */
  lemma TakeSorted(s: seq<Activity>, n: nat)
    requires SortedByRecency(s)
    ensures SortedByRecency(Take(s, n))
  {
    var r := Take(s, n);
    assert forall i :: 0 <= i < |r| ==> r[i] == s[i];
  }

  /** Every entry of the recent activities is emitted by a completed content item with
      an access time. */
  lemma {:induction false} RecentEmitted(courses: seq<Course>)
    ensures forall k :: 0 <= k < |Take(SortByRecency(FeedActivities(courses)), 3)| ==>
      EmittedBy(courses, Take(SortByRecency(FeedActivities(courses)), 3)[k])
  {
    var feed := FeedActivities(courses);
    var sorted := SortByRecency(feed);
    var recent := Take(sorted, 3);
    FeedMembers(courses);
    forall k | 0 <= k < |recent| ensures EmittedBy(courses, recent[k]) {
      assert recent[k] == sorted[k];
      assert sorted[k] in multiset(sorted);
      assert sorted[k] in feed;
    }
  }

  /** The dashboard's recent activities: the collected entries sorted newest first and
      the first three kept. */
  method RecentActivities(courses: seq<Course>) returns (recent: seq<Activity>)
    ensures recent == Take(SortByRecency(FeedActivities(courses)), 3)
    ensures |recent| <= 3 && SortedByRecency(recent)
    ensures forall k :: 0 <= k < |recent| ==> EmittedBy(courses, recent[k])
    ensures forall a, k ::
      (a in multiset(FeedActivities(courses)) - multiset(recent) && 0 <= k < |recent|)
      ==> a.lastAccessedAt <= recent[k].lastAccessedAt
  {
    var activities := CollectActivities(courses);
    activities := SortByRecency(activities);
    recent := Take(activities, 3);
    TakeSorted(activities, 3);
    RecentEmitted(courses);
    NewestKept(FeedActivities(courses));
  }
}

=== FILE: seqs.dfy ===
/** The array operations the dashboard composes: `filter`, `slice(0, n)` and the
    "same elements, same relative order" relation they both keep. */
module Seqs {

  /** `xs.filter(p)`: the elements satisfying `p`, in their original order. */
  function Filter<T>(xs: seq<T>, p: T -> bool): (r: seq<T>)
    ensures |r| <= |xs|
    ensures forall k :: 0 <= k < |r| ==> r[k] in xs && p(r[k])
    ensures forall k :: 0 <= k < |xs| && p(xs[k]) ==> xs[k] in r
  {
    if xs == [] then []
    else (if p(xs[0]) then [xs[0]] else []) + Filter(xs[1..], p)
  }

  /** Filtering keeps every copy of an element that satisfies `p` and no copy of one
      that does not. */
  lemma {:induction false} FilterCounts<T(!new)>(xs: seq<T>, p: T -> bool)
    ensures forall x :: multiset(Filter(xs, p))[x] == if p(x) then multiset(xs)[x] else 0
  {
    if xs != [] {
      FilterCounts(xs[1..], p);
      assert xs == [xs[0]] + xs[1..];
    }
  }

  /** Filtering works element by element: it distributes over concatenation. */
  lemma {:induction false} FilterConcat<T(!new)>(xs: seq<T>, ys: seq<T>, p: T -> bool)
    ensures Filter(xs + ys, p) == Filter(xs, p) + Filter(ys, p)
  {
    if xs == [] {
      assert xs + ys == ys;
    } else {
      assert (xs + ys)[1..] == xs[1..] + ys;
      FilterConcat(xs[1..], ys, p);
    }
  }

  /** `xs.slice(0, n)`. */
  function Take<T>(xs: seq<T>, n: nat): (r: seq<T>)
    ensures |r| == if |xs| < n then |xs| else n
    ensures r == xs[..|r|]
  {
    if |xs| < n then xs else xs[..n]
  }

  /** `sub` is obtained from `xs` by deleting elements: its elements occur in `xs`
      in the same relative order. */
  predicate IsSubsequence<T(==)>(sub: seq<T>, xs: seq<T>)
    decreases |xs|
  {
    sub == [] ||
    (xs != [] &&
      ((sub[0] == xs[0] && IsSubsequence(sub[1..], xs[1..])) || IsSubsequence(sub, xs[1..])))
  }

  /** Filtering keeps the relative order of what it keeps. */
  lemma {:induction false} FilterIsSubsequence<T(!new)>(xs: seq<T>, p: T -> bool)
    ensures IsSubsequence(Filter(xs, p), xs)
  {
    if xs != [] {
      FilterIsSubsequence(xs[1..], p);
      if p(xs[0]) {
        assert Filter(xs, p)[1..] == Filter(xs[1..], p);
      } else {
        assert Filter(xs, p) == Filter(xs[1..], p);
      }
    }
  }

  /** A prefix of a subsequence is a subsequence. */
  lemma {:induction false} PrefixIsSubsequence<T>(sub: seq<T>, xs: seq<T>, n: nat)
    requires IsSubsequence(sub, xs) && n <= |sub|
    ensures IsSubsequence(sub[..n], xs)
    decreases |xs|
  {
    if n > 0 {
      if sub[0] == xs[0] && IsSubsequence(sub[1..], xs[1..]) {
        PrefixIsSubsequence(sub[1..], xs[1..], n - 1);
        assert sub[..n][1..] == sub[1..][..n - 1];
      } else {
        PrefixIsSubsequence(sub, xs[1..], n);
      }
    }
  }

  /** Every element of a subsequence is an element of the sequence. */
  lemma {:induction false} SubsequenceMembers<T>(sub: seq<T>, xs: seq<T>)
    requires IsSubsequence(sub, xs)
    ensures forall k :: 0 <= k < |sub| ==> sub[k] in xs
    decreases |xs|
  {
    if sub != [] {
      if sub[0] == xs[0] && IsSubsequence(sub[1..], xs[1..]) {
        SubsequenceMembers(sub[1..], xs[1..]);
        assert sub == [sub[0]] + sub[1..];
      } else {
        SubsequenceMembers(sub, xs[1..]);
      }
      assert xs == [xs[0]] + xs[1..];
    }
  }
}

=== FILE: text.dfy ===
/** The JavaScript string operations the core relies on: `trim`, the `\s` class,
    `toLowerCase`, `includes`, `length` (UTF-16 code units) and `replace(/\n/g, '<br>')`. */
module Text {

  import opened Wrappers

  /** JavaScript truthiness of an optional string field: present and not empty. */
  function Truthy(o: Option<string>): (b: bool)
    ensures b <==> o.Some? && |o.value| > 0
  {
    o.Some? && o.value != ""
  }

  /** A field is truthy exactly when `field || ""` is not the empty string. */
  lemma TruthyDefault(o: Option<string>)
    ensures Truthy(o) <==> o.GetOr("") != ""
  {
  }

  /** JavaScript white space: the characters `String.prototype.trim` removes and the
      regular-expression class `\s` matches (WhiteSpace and LineTerminator of ECMA-262). */
  function IsSpace(c: char): (b: bool)
    ensures c as int < 0x80 ==> (b <==> c == ' ' || 0x09 <= c as int <= 0x0D)
    ensures '0' <= c <= '9' || 'A' <= c <= 'Z' || 'a' <= c <= 'z' || c == '@' || c == '.' ==> !b
  {
    var n := c as int;
    n == 0x09 || n == 0x0A || n == 0x0B || n == 0x0C || n == 0x0D || n == 0x20
    || n == 0xA0 || n == 0x1680 || (0x2000 <= n <= 0x200A)
    || n == 0x2028 || n == 0x2029 || n == 0x202F || n == 0x205F || n == 0x3000 || n == 0xFEFF
  }

  /** Every character is white space (the empty string included). */
  predicate IsBlank(s: string) {
    forall i :: 0 <= i < |s| ==> IsSpace(s[i])
  }

  /** Drops leading white space. */
  function TrimStart(s: string): string {
    if s != [] && IsSpace(s[0]) then TrimStart(s[1..]) else s
  }

  /** Drops trailing white space. */
  function TrimEnd(s: string): string {
    if s != [] && IsSpace(s[|s| - 1]) then TrimEnd(s[..|s| - 1]) else s
  }

  /** `TrimStart` keeps the suffix that starts at the first non-space character. */
  lemma {:induction false} TrimStartShape(s: string)
    ensures |TrimStart(s)| <= |s| && TrimStart(s) == s[|s| - |TrimStart(s)|..]
    ensures forall i :: 0 <= i < |s| - |TrimStart(s)| ==> IsSpace(s[i])
    ensures TrimStart(s) == [] || !IsSpace(TrimStart(s)[0])
  {
    if s != [] && IsSpace(s[0]) {
      var t := s[1..];
      TrimStartShape(t);
      var r := TrimStart(t);
      assert TrimStart(s) == r;
      assert r == s[|s| - |r|..] by {
        assert t[|t| - |r|..] == s[|s| - |r|..];
      }
      forall i | 0 <= i < |s| - |r|
        ensures IsSpace(s[i])
      {
        if i > 0 {
          assert s[i] == t[i - 1];
        }
      }
    }
  }

  /** `TrimEnd` keeps the prefix that ends at the last non-space character. */
  lemma {:induction false} TrimEndShape(s: string)
    ensures |TrimEnd(s)| <= |s| && TrimEnd(s) == s[..|TrimEnd(s)|]
    ensures forall i :: |TrimEnd(s)| <= i < |s| ==> IsSpace(s[i])
    ensures TrimEnd(s) == [] || !IsSpace(TrimEnd(s)[|TrimEnd(s)| - 1])
  {
    if s != [] && IsSpace(s[|s| - 1]) {
      var t := s[..|s| - 1];
      TrimEndShape(t);
      assert TrimEnd(s) == TrimEnd(t);
      assert t[..|TrimEnd(t)|] == s[..|TrimEnd(t)|];
      assert forall i :: 0 <= i < |t| ==> s[i] == t[i];
    }
  }

  /** `String.prototype.trim`: the piece of `s` left once the white space at both ends
      is dropped; it starts and ends with a non-space character, and is empty exactly
      when `s` is blank. */
  function Trim(s: string): (r: string)
    ensures |r| <= |s|
    ensures exists i :: OccursAt(s, r, i) && IsBlank(s[..i]) && IsBlank(s[i + |r|..])
    ensures r == [] <==> IsBlank(s)
    ensures r != [] ==> !IsSpace(r[0]) && !IsSpace(r[|r| - 1])
  {
    var t := TrimStart(s);
    var r := TrimEnd(t);
    TrimStartShape(s);
    TrimEndShape(t);
    var k := |s| - |t|;
    assert r == s[k..k + |r|];
    assert OccursAt(s, r, k);
    assert IsBlank(s[..k]);
    assert IsBlank(s[k + |r|..]) by {
      assert s[k + |r|..] == t[|r|..];
    }
    assert r != [] ==> r[0] == s[k] && !IsSpace(s[k]);
    r
  }

  /** A string that neither starts nor ends with white space is its own trim. */
  lemma TrimKeeps(s: string)
    requires s != [] && !IsSpace(s[0]) && !IsSpace(s[|s| - 1])
    ensures Trim(s) == s
  {
    var r := Trim(s);
    var i :| OccursAt(s, r, i) && IsBlank(s[..i]) && IsBlank(s[i + |r|..]);
    assert s[i..i + |r|] == s;
  }

  /** `String.prototype.toLowerCase`, for the ASCII letters. */
  function LowerChar(c: char): char {
    if 'A' <= c <= 'Z' then (c as int + 32) as char else c
  }

  /** Lower-cases every ASCII letter and keeps every other character. */
  function Lower(s: string): (r: string)
    ensures |r| == |s|
    ensures forall i :: 0 <= i < |s| ==> !('A' <= r[i] <= 'Z')
    ensures forall i :: 0 <= i < |s| && !('A' <= s[i] <= 'Z') ==> r[i] == s[i]
    ensures forall i :: 0 <= i < |s| && 'A' <= s[i] <= 'Z' ==> r[i] as int == s[i] as int + 32
  {
    seq(|s|, i requires 0 <= i < |s| => LowerChar(s[i]))
  }

  /** `sub` is the piece of `s` that starts at index `i`. */
  predicate OccursAt(s: string, sub: string, i: int) {
    0 <= i <= |s| - |sub| && s[i..i + |sub|] == sub
  }

  /** `s.includes(sub)`: `sub` occurs in `s` as a contiguous piece (the empty string
      occurs everywhere). */
  function Contains(s: string, sub: string): (b: bool)
    ensures b ==> |sub| <= |s|
    ensures sub == [] ==> b
    ensures sub == s ==> b
  {
    assert sub == [] ==> OccursAt(s, sub, 0);
    assert sub == s ==> OccursAt(s, sub, 0);
    exists i | 0 <= i <= |s| - |sub| :: OccursAt(s, sub, i)
  }

  /** `s.length` in JavaScript: one code unit per character of the Basic Multilingual
      Plane and two (a surrogate pair) per character above it. */
  function Utf16Length(s: string): (n: nat)
    ensures |s| <= n <= 2 * |s|
  {
    if s == [] then 0 else (if s[0] as int > 0xFFFF then 2 else 1) + Utf16Length(s[1..])
  }

  /** `s.replace(/\n/g, '<br>')`: every line feed becomes the HTML line break. */
  function BreakLines(s: string): (r: string)
    ensures |s| <= |r| && '\n' !in r
  {
    if s == [] then []
    else (if s[0] == '\n' then "<br>" else [s[0]]) + BreakLines(s[1..])
  }

  /** Number of line feeds in `s`. */
  function NewlineCount(s: string): nat {
    if s == [] then 0 else (if s[0] == '\n' then 1 else 0) + NewlineCount(s[1..])
  }

  /** The rewrite leaves no line feed behind, changes nothing in a string that has
      none, and grows the string by three characters per line feed. */
  lemma {:induction false} BreakLinesSpec(s: string)
    ensures '\n' !in BreakLines(s)
    ensures '\n' !in s ==> BreakLines(s) == s
    ensures |BreakLines(s)| == |s| + 3 * NewlineCount(s)
  {
    if s != [] {
      BreakLinesSpec(s[1..]);
      assert '\n' !in s ==> '\n' !in s[1..];
      assert s == [s[0]] + s[1..];
    }
  }

  /** A line feed becomes the four characters `<br>`; every other character stays. */
  lemma BreakLinesChar(c: char)
    ensures BreakLines([c]) == if c == '\n' then "<br>" else [c]
  {
    assert [c][1..] == [];
  }

  /** The rewrite works character by character: it distributes over concatenation,
      so the message may be split anywhere and rewritten piecewise. */
  lemma {:induction false} BreakLinesConcat(a: string, b: string)
    ensures BreakLines(a + b) == BreakLines(a) + BreakLines(b)
  {
    if a != [] {
      assert (a + b)[1..] == a[1..] + b;
      BreakLinesConcat(a[1..], b);
    } else {
      assert a + b == b;
    }
  }
}

=== FILE: wrappers.dfy ===
/** Optional values: JavaScript's `undefined`/absent fields and `x || fallback` defaults. */
module Wrappers {

  datatype Option<+T> = None | Some(value: T) {

    /** The value, or `default` when absent (JavaScript's `x || default` on a present, truthy `x`). */
    function GetOr(default: T): T {
      match this
      case Some(v) => v
      case None => default
    }
  }
}
